=== FILE: README.md ===
# MessagesAPI message core, modelled in Dafny

This project models the message core of MessagesAPI, a library for localized chat messages. It has two parts.

- **`Message`.** A message loaded from a language file takes one of six shapes: disabled, simple, simple-random, localized, localized-random and localized-mixed. The model covers:
  - how each shape is loaded from raw configuration values;
  - how `get(locale)` resolves a component, with fallback to the primary locale;
  - how a resolved component passes the `handleMessage` gate;
  - the sends and broadcasts, including the batched `broadcastMessage`, which resolves at most once per distinct locale;
  - how `toMap` writes a message back into per-locale sections of a language file.
- **`BaseMessagesAPI`.** The owning API instance holds the ordered list of supported locales (index 0 is the primary locale, `ENGLISH` when none is given) and the broadcast receiver.

Files:

- `wrappers.dfy`: `Option` and `Result`.
- `api.dfy`: module `MessagesApi`. Locales, receivers and the API record.
- `message.dfy`: module `Messages`. The six shapes and `get`.
- `loader.dfy`: module `Loader`. The two `load` overloads.
- `delivery.dfy`: module `Delivery`. `handleMessage`, the sends and the broadcasts.
- `persistence.dfy`: module `Persistence`. `toMap`, `toMap1`, `toMap2` and reading a written file back.

Modelling choices:

- **Components.** The rich-text component is an opaque type parameter `C`.
- **Injected functions.** Three external functions are parameters:
  - `parse` stands for `ComponentSerializer.safeParse(text, '&')`;
  - `substitute` stands for placeholder replacement with the message's placeholder table and the call's data;
  - `encode` stands for the legacy or structured text encoding `toMap` writes.
- **Random picks.** `random.nextInt(n)` is a `Picker`: a function defined only for positive `n`, where it returns an index below `n`. `nextInt(0)` throws, so every draw in the model must show that its bound is positive. The batched broadcast gets one `Picker` per resolution it performs, numbered in the order the resolutions happen.
- **Null and exceptions.** A null component is `None`. An exception raised by the loader is a `Result` failure.
- **Locale list.** Reading `getLanguages()[0]` on an empty locale list throws. This becomes a precondition, stated exactly where the code performs that read.
- **Mutable maps.** The maps `toMap` mutates become immutable values: `toMap` returns the updated store.

Behaviours of the code that are easy to miss:

- `sendMessage` resolves the message before it checks `isEnabled()`. The check does not short-circuit resolution. This is harmless, because the disabled shape resolves to null.
- `false` disables a message only when it is a single value. Inside a map of two or more locales, `toString()` turns it into the text `"false"` (lemma `Loader.FalseInMapIsText`).
- `setLanguages` accepts an empty array. So every member that reads the primary locale requires a non-empty list, and only where the code reads it.
- The "both partitions empty" failure of `load(Map)` cannot happen. A null value throws earlier, and every other value falls into one of the two partitions (`Loader.PartitionCovers`). The model has no branch for it.
- With an empty receiver set, the batched broadcast resolves nothing, not even the fallback locale.

A note on the source, proved rather than corrected. In the localized-mixed shape, the singular lookup falls back to the primary locale's singular entry before the sequence part is consulted. So a locale that only has a sequence of its own is answered with the primary locale's singular text whenever there is one (`Messages.MixedSingularShadowsOwnSequence`). The model keeps this behaviour.

## Model

| member | source | states |
|---|---|---|
| MessagesApi.NewApi | src/main/java/com/gotofinal/messages/BaseMessagesAPI.java:15-29 | the locale list is never empty after construction; no locales gives exactly `[ENGLISH]`, otherwise the list is kept as given; the broadcast receiver starts as the everyone receiver |
| MessagesApi.NewApiHasPrimary | src/main/java/com/gotofinal/messages/BaseMessagesAPI.java:19-29 | right after construction the primary locale exists and is the first locale given, or `ENGLISH` |
| MessagesApi.SetLanguages | src/main/java/com/gotofinal/messages/BaseMessagesAPI.java:42-45 | `getLanguages()` afterwards returns exactly the new list; the broadcast receiver is unchanged |
| MessagesApi.SetLanguagesCanEmpty | src/main/java/com/gotofinal/messages/BaseMessagesAPI.java:42-45 | an empty list is accepted, so a non-empty list is not an invariant of the API |
| MessagesApi.GetLanguagesReadsBack | src/main/java/com/gotofinal/messages/BaseMessagesAPI.java:31-35 | `getLanguages()` returns the list the constructor stored, then whatever `setLanguages` last stored; setting the receiver leaves it alone |
| MessagesApi.GetBroadcastReceiverReadsBack | src/main/java/com/gotofinal/messages/BaseMessagesAPI.java:47-51 | `getBroadcastReceiver()` returns the everyone receiver after construction, then whatever `setBroadcastReceiver` last stored; setting the locales leaves it alone |
| MessagesApi.SetBroadcastReceiver | src/main/java/com/gotofinal/messages/BaseMessagesAPI.java:47-57 | `getBroadcastReceiver()` afterwards returns the new receiver; the languages are unchanged |
| MessagesApi.EffectiveLocale | src/main/java/com/gotofinal/messages/api/messages/Message.java:317-329 | a given locale is used verbatim; a null one becomes the primary locale |
| Messages.Lookup | src/main/java/com/gotofinal/messages/api/messages/Message.java:615 | `getOrDefault(key, get(primary))` yields the key's entry when present, else the primary's entry, else nothing |
| Messages.PickFrom | src/main/java/com/gotofinal/messages/api/messages/Message.java:543-550 | a pick exists exactly for a non-empty sequence and is an element of it |
| Messages.Get | src/main/java/com/gotofinal/messages/api/messages/Message.java:177-184 | a disabled message never resolves; any result is the substitution of a component the message holds |
| Messages.RandomSelectionHeld | src/main/java/com/gotofinal/messages/api/messages/Message.java:682-694 | a random selection is an element of the sequence stored under some locale |
| Messages.DisabledNeverResolves | src/main/java/com/gotofinal/messages/api/messages/Message.java:457-466 | the disabled shape resolves to null for every locale and reports itself disabled |
| Messages.NullLocaleIsPrimary | src/main/java/com/gotofinal/messages/api/messages/Message.java:608-612 | for every shape, resolving a null locale equals resolving the primary locale |
| Messages.SimpleShapesIgnoreLocale | src/main/java/com/gotofinal/messages/api/messages/Message.java:499-506 | the locale-independent shapes give the same result for any two locales |
| Messages.SimpleRandomPicksInRange | src/main/java/com/gotofinal/messages/api/messages/Message.java:543-550 | simple-random resolves exactly when its sequence is non-empty, to the substituted element at the drawn in-range index |
| Messages.LocalizedFallback | src/main/java/com/gotofinal/messages/api/messages/Message.java:602-622 | a present locale gets its own entry, an absent one gets the primary's; the result is null exactly when both are absent |
| Messages.LocalizedRandomFallback | src/main/java/com/gotofinal/messages/api/messages/Message.java:675-695 | same fallback for sequences; null exactly when the selected sequence is empty or both are absent; otherwise the in-range pick of the selected sequence |
| Messages.MixedPrefersSingular | src/main/java/com/gotofinal/messages/api/messages/Message.java:761-788 | localized-mixed resolves as its singular part when that yields a component and as its sequence part otherwise |
| Messages.MixedSingularShadowsOwnSequence | src/main/java/com/gotofinal/messages/api/messages/Message.java:768-772 | a locale held only by the sequence part is answered by the primary locale's singular entry when there is one |
| Loader.LoadValue | src/main/java/com/gotofinal/messages/api/messages/Message.java:148-174 | failure exactly for null; disabled exactly for `false`; other scalars are simple with their text; arrays and collections are simple-random with the same items in the same order; never a localized shape |
| Loader.SingularPart | src/main/java/com/gotofinal/messages/api/messages/Message.java:97-123 | holds exactly the scalar-valued locales, each with its parsed text |
| Loader.SequencePart | src/main/java/com/gotofinal/messages/api/messages/Message.java:97-122 | holds exactly the array- or collection-valued locales, each with its parsed items in order |
| Loader.LoadLocalized | src/main/java/com/gotofinal/messages/api/messages/Message.java:85-138 | no locales fails; one locale delegates to the single-value load; for two or more it fails exactly when a value is null, and otherwise the shape follows which partitions are empty, with the partitions as the message's parts |
| Loader.PartitionCovers | src/main/java/com/gotofinal/messages/api/messages/Message.java:95-128 | without nulls the two partitions are disjoint and cover every locale, so the both-empty failure is unreachable |
| Loader.LoadedIsWellFormed | src/main/java/com/gotofinal/messages/api/messages/Message.java:85-138 | every loaded localized message holds at least two locales, and a mixed one holds each locale in exactly one part |
| Loader.SingleEntryIsNotLocalized | src/main/java/com/gotofinal/messages/api/messages/Message.java:91-94 | a one-locale map loads as its single value and never as a localized shape |
| Loader.MultiLocaleShape | src/main/java/com/gotofinal/messages/api/messages/Message.java:129-137 | all scalars give localized, all sequences give localized-random, both kinds give localized-mixed |
| Loader.FalseInMapIsText | src/main/java/com/gotofinal/messages/api/messages/Message.java:123 | inside a multi-locale map, `false` loads as the enabled text "false" |
| Delivery.Handle | src/main/java/com/gotofinal/messages/api/messages/Message.java:217-229 | delivers and reports success exactly when the message is enabled and the component is present |
| Delivery.Send | src/main/java/com/gotofinal/messages/api/messages/Message.java:240-244 | at most one delivery, to the target, of a substituted component the message holds; never for a disabled message |
| Delivery.SendPreferred | src/main/java/com/gotofinal/messages/api/messages/Message.java:246-257 | resolution uses the target's preferred locale: success exactly when resolving that locale yields a component, which is then the single delivery, to the target; a disabled message returns false and delivers nothing |
| Delivery.SendIffResolved | src/main/java/com/gotofinal/messages/api/messages/Message.java:217-244 | a send succeeds exactly when resolution yields a component, and then delivers that component |
| Delivery.DeliverAll | src/main/java/com/gotofinal/messages/api/messages/Message.java:289 | an enabled message delivers the component to every target in order; a disabled one delivers nothing |
| Delivery.BroadcastStatic | src/main/java/com/gotofinal/messages/api/messages/Message.java:282-291 | success exactly when the single resolution yields a component, regardless of the number of targets; then every target gets that same component in order |
| Delivery.BroadcastStaticToAll | src/main/java/com/gotofinal/messages/api/messages/Message.java:267-271 | one delivery to the API's broadcast receiver exactly when resolution yields a component |
| Delivery.CachedGet | src/main/java/com/gotofinal/messages/api/messages/Message.java:331-339 | a cached locale, even a null entry, is reused without resolving; an uncached one is resolved once with the next draw and recorded |
| Delivery.FaithfulExtend | src/main/java/com/gotofinal/messages/api/messages/Message.java:336-339 | caching a fresh resolution keeps every cache entry equal to the resolution made for it, in resolution order |
| Delivery.ServeReceiver | src/main/java/com/gotofinal/messages/api/messages/Message.java:325-353 | a receiver gets its own locale's component, else the fallback locale's; the fallback is resolved only on a null own result; existing entries are unchanged; the log grows by the own locale if it was new, then by the fallback if it was needed and new |
| Delivery.DisabledCachesNothing | src/main/java/com/gotofinal/messages/api/messages/Message.java:331-353 | for a disabled message every cached resolution is null |
| Delivery.ExpectedNonEmptyIff | src/main/java/com/gotofinal/messages/api/messages/Message.java:356-361 | the delivery trace is non-empty exactly when some receiver has a chosen component |
| Delivery.ExpectedStep | src/main/java/com/gotofinal/messages/api/messages/Message.java:323-359 | serving one more receiver appends exactly that receiver's delivery, if any, to the trace |
| Delivery.BroadcastStep | src/main/java/com/gotofinal/messages/api/messages/Message.java:323-359 | one loop iteration keeps the cache faithful, covering, bounded to the locales seen, and the trace equal to the reference trace |
| Delivery.FirstNeedStep | src/main/java/com/gotofinal/messages/api/messages/Message.java:331-350 | serving one receiver extends the resolution order by its own locale if it was not yet resolved, then by the default locale if the own entry is null and the default was not yet resolved |
| Delivery.FirstNeedStartsWithFirstReceiver | src/main/java/com/gotofinal/messages/api/messages/Message.java:323-339 | the first receiver's locale is the first locale resolved, so with a fresh cache it takes the first random draw |
| Delivery.BroadcastMessage | src/main/java/com/gotofinal/messages/api/messages/Message.java:315-362 | each locale is resolved at most once and cached, even when null; the cache holds only receiver locales and the fallback, and the fallback only when it is some receiver's own locale or some receiver's own entry is null; the log of resolutions is the order in which receivers first need each locale (`FirstNeed`), so the k-th such locale uses the k-th draw; deliveries are each receiver's own component, else the fallback's, in order; success exactly when some receiver got one; nothing for a disabled message or an empty receiver set |
| Delivery.ResolutionIgnoresDraw | src/main/java/com/gotofinal/messages/api/messages/Message.java:602-622 | shapes without a random part resolve the same whatever the draw |
| Delivery.CachedIsResolution | src/main/java/com/gotofinal/messages/api/messages/Message.java:331-339 | without a random part, a cached entry equals a fresh resolution of its locale |
| Delivery.BatchedMatchesDirect | src/main/java/com/gotofinal/messages/api/messages/Message.java:315-362 | without a random part, the batched broadcast delivers exactly what a cache-free per-receiver resolution delivers |
| Persistence.WriteEntry | src/main/java/com/gotofinal/messages/api/messages/Message.java:469-479 | the default locale's section is created if absent and gets the value under the key; other keys and locales are unchanged |
| Persistence.ToMap1 | src/main/java/com/gotofinal/messages/api/messages/Message.java:823-838 | every locale of the singular map gets its encoded text under the key, and nothing else changes |
| Persistence.ToMap2 | src/main/java/com/gotofinal/messages/api/messages/Message.java:840-860 | every locale of the sequence map gets its list of encoded texts under the key, and nothing else changes |
| Persistence.ToMapMixed | src/main/java/com/gotofinal/messages/api/messages/Message.java:791-796 | sequence locales get their lists, singular-only locales their texts; other keys and locales are unchanged |
| Persistence.MixedSectionsKept | src/main/java/com/gotofinal/messages/api/messages/Message.java:791-796 | the two successive writes leave every other key of a section untouched |
| Persistence.WriteEntryWrites | src/main/java/com/gotofinal/messages/api/messages/Message.java:509-518 | the locale-independent shapes write their persisted value under the default locale only |
| Persistence.ToMap1Writes | src/main/java/com/gotofinal/messages/api/messages/Message.java:625-628 | localized `toMap` writes exactly its locales with their texts |
| Persistence.ToMap2Writes | src/main/java/com/gotofinal/messages/api/messages/Message.java:698-701 | localized-random `toMap` writes exactly its locales with their lists |
| Persistence.ToMapMixedWrites | src/main/java/com/gotofinal/messages/api/messages/Message.java:791-796 | localized-mixed `toMap` writes the locales of both parts, and the list wins where both hold a locale |
| Persistence.ToMap | src/main/java/com/gotofinal/messages/api/messages/Message.java:185-197 | adds exactly the written locales; each gets the persisted value under the key with its other keys unchanged; every other locale is untouched |
| Persistence.MixedSequenceWins | src/main/java/com/gotofinal/messages/api/messages/Message.java:791-796 | where both parts hold a locale, the sequence's list overwrites the singular text |
| Persistence.LoadedMixedKeepsSingular | src/main/java/com/gotofinal/messages/api/messages/Message.java:791-796 | for a loaded mixed message, every singular text survives the write |
| Persistence.SimpleRoundTrip | src/main/java/com/gotofinal/messages/api/messages/Message.java:148-174 | a locale-independent message written under the default locale loads back as itself |
| Persistence.SingularReadsBack | src/main/java/com/gotofinal/messages/api/messages/Message.java:823-838 | a singular map written into an empty store reads back as its texts |
| Persistence.SequenceReadsBack | src/main/java/com/gotofinal/messages/api/messages/Message.java:840-860 | a sequence map written into an empty store reads back as its lists |
| Persistence.MixedReadsBack | src/main/java/com/gotofinal/messages/api/messages/Message.java:791-796 | a mixed message with disjoint parts reads back as texts and lists per locale |
| Persistence.LoadSingularRaw | src/main/java/com/gotofinal/messages/api/messages/Message.java:129-136 | the texts of two or more locales load back as the localized message |
| Persistence.LoadSequenceRaw | src/main/java/com/gotofinal/messages/api/messages/Message.java:129-132 | the lists of two or more locales load back as the localized-random message |
| Persistence.LoadMixedRaw | src/main/java/com/gotofinal/messages/api/messages/Message.java:129-137 | texts and lists of disjoint locales load back as the localized-mixed message |
| Persistence.LocalizedRoundTrip | src/main/java/com/gotofinal/messages/api/messages/Message.java:625-628 | writing a localized message and loading the key back gives the same message |
| Persistence.RandomRoundTrip | src/main/java/com/gotofinal/messages/api/messages/Message.java:698-701 | writing a localized-random message and loading the key back gives the same message |
| Persistence.MixedRoundTrip | src/main/java/com/gotofinal/messages/api/messages/Message.java:791-796 | writing a mixed message with disjoint parts and loading the key back gives the same message |
| Persistence.PersistRoundTrip | src/main/java/com/gotofinal/messages/api/messages/Message.java:85-138 | every well-formed message (in particular every loaded one) survives `toMap` followed by `load`, when the parser reads back what the encoder wrote |

## Left out

- Placeholder tables: deriving a message's placeholder table (`PlaceholderData.parseString` over the texts, joined in `HashMap` order) and the replacement itself are not part of this model. Both are the injected `substitute`.
- `ComponentSerializer.safeParse`, `toLegacyText`, `ComponentSerializer.toString` and `canBeLegacy` are foreign code. They are the injected `parse` and `encode`. The round trips assume the parser reads back what the encoder wrote.
- Persistence.Reread: the code that reads a written language file back into the locale map `load` receives is not part of this model. `Persistence.Reread` and `Persistence.ToRaw` are an assumption about it. A locale is assumed to appear exactly when its section holds the message key. A list is assumed to come back as a collection of strings, `false` as a boolean and a text as a string. Every round-trip lemma rests on this assumption.
- Sections are ordered case-insensitively (a `TreeMap` with `CASE_INSENSITIVE_ORDER`). Keys here are compared exactly; Dafny strings have no case folding.
- `toMap` mutates and returns the caller's map. Here it returns a new store, so aliasing is not modelled.
- `java.util.Random` is shared across threads, and its picks are uniform. Neither is modelled: a `Picker` is any in-range choice, and concurrency is out of scope.
- A null element inside a collection value makes `o.toString()` throw. This is not modelled: collection items arrive as texts. A null component or map inside a constructed message is not modelled either: `parse` is taken never to return null. `SimpleMessage.get` would return null for a null component and `toMap` would throw on one, but what `ComponentSerializer.safeParse` returns is foreign code.
- `ComponentSerializer.safeParse(String[], '&')`, the array form used for sequences, is taken to parse element by element with the single-text `parse`.
- The locale array is shared with the caller, not copied, by the constructor, `setLanguages` and `getLanguages`. Here it is an immutable sequence, fixed for each call, so in-place writes to it are not modelled. Such a write could change `getLanguages()[0]` in the middle of a `broadcastMessage`, which reads it again at each resolution. `MessagesApi.GetLanguagesReadsBack` holds only under this value view. A null array, which `setLanguages` accepts and which makes the broadcast's `getLanguages().length` throw, is not modelled either.
- Null entries inside the locale array are not modelled.
- Placeholder replacement is modelled as the pure function `substitute`. The code's `replace` calls `placeholderData.replace(component, …)` and discards its result, so it may mutate the stored component that `get` passes in. One resolution could then change what later resolutions see. That mutation is not modelled. `Messages.NullLocaleIsPrimary`, `Delivery.CachedIsResolution` and `Delivery.BatchedMatchesDirect` rely on resolution being pure.
- `MessageData`, `toString()` of the message shapes and `joinString` are left out. They are debugging text and do not feed resolution or delivery.
- The Bukkit and BungeeCord glue is left out: the converters, the receivers and the API subclasses.
- `broadcastMessage(data)`, `broadcastMessage(lang, data)` and `broadcastMessage(targets, data)` only supply `api.getReceivers()` or a null locale to the modelled overload. `getReceivers()` is platform code, so the receivers are a parameter.
- Delivery failures thrown by a receiver are not modelled: `sendMessage` on a receiver is appending to the delivery trace.
- Delivery.BroadcastMessage: the k-th resolution uses `draws(k)`, and the contract fixes the resolution order as receiver order (`Delivery.FirstNeed`). The real generator's sequence of numbers is not modelled beyond that.

=== FILE: api.dfy ===
/** The owning API instance (BaseMessagesAPI): its ordered list of supported
    locales, whose first element is the primary locale every lookup falls back
    to, and the receiver that stands for "everyone reachable". */
module MessagesApi {
  import opened Wrappers

  /** java.util.Locale, reduced to its identifying parts. */
  datatype Locale = Locale(language: string, country: string, variant: string)

  /** Locale.ENGLISH */
  const ENGLISH: Locale := Locale("en", "", "")

  /** A message receiver. `Everyone` is the API's broadcast receiver, which
      forwards to all players and has no preferred locale of its own. */
  datatype Receiver =
    | Everyone
    | Target(id: nat, preferred: Option<Locale>)
  {
    /** MessageReceiver.getPreferredLocale: absent means "no preference". */
    function PreferredLocale(): Option<Locale> {
      match this
      case Everyone => None
      case Target(_, p) => p
    }
  }

  datatype Api = Api(locales: seq<Locale>, broadcastReceiver: Receiver)

  /** The constructor: no locales given means exactly [ENGLISH]; otherwise the
      list is kept as given. The broadcast receiver starts as `Everyone`. */
  function NewApi(locales: seq<Locale>): (a: Api)
    ensures |a.locales| > 0
    ensures |locales| == 0 ==> a.locales == [ENGLISH]
    ensures |locales| > 0 ==> a.locales == locales
    ensures a.broadcastReceiver == Everyone
  {
    if |locales| == 0 then Api([ENGLISH], Everyone) else Api(locales, Everyone)
  }

  /** The locale list as last set; characterised by `GetLanguagesReadsBack`. */
  function GetLanguages(a: Api): seq<Locale> {
    a.locales
  }

  /** Replaces the locale list wholesale; an empty list is accepted, so the
      non-emptiness established by `NewApi` is not an invariant of `Api`. */
  function SetLanguages(a: Api, locales: seq<Locale>): (r: Api)
    ensures GetLanguages(r) == locales
    ensures r.broadcastReceiver == a.broadcastReceiver
  {
    a.(locales := locales)
  }

  /** The receiver as last set; characterised by `GetBroadcastReceiverReadsBack`. */
  function GetBroadcastReceiver(a: Api): Receiver {
    a.broadcastReceiver
  }

  function SetBroadcastReceiver(a: Api, receiver: Receiver): (r: Api)
    ensures GetBroadcastReceiver(r) == receiver
    ensures GetLanguages(r) == GetLanguages(a)
  {
    a.(broadcastReceiver := receiver)
  }

  /** The primary locale: index 0 of the locale list. */
  function Primary(langs: seq<Locale>): Locale
    requires |langs| > 0
  {
    langs[0]
  }

  /** The locale fallback policy: a requested locale is used verbatim, an
      absent one becomes the primary locale. */
  function EffectiveLocale(lang: Option<Locale>, langs: seq<Locale>): (l: Locale)
    requires lang.Some? || |langs| > 0
    ensures lang.Some? ==> l == lang.value
    ensures lang.None? ==> l == Primary(langs)
  {
    if lang.Some? then lang.value else langs[0]
  }

  /** Right after construction a primary locale exists, and it is the first
      locale passed in, or ENGLISH when none was. */
  lemma NewApiHasPrimary(locales: seq<Locale>)
    ensures |GetLanguages(NewApi(locales))| > 0
    ensures Primary(GetLanguages(NewApi(locales))) == if |locales| == 0 then ENGLISH else locales[0]
  {
  }

  /** An empty list is stored as given, so non-emptiness is not an invariant,
      which is why the resolution functions take it as a precondition. */
  lemma SetLanguagesCanEmpty(a: Api)
    ensures |GetLanguages(SetLanguages(a, []))| == 0
  {
  }

  /** `getLanguages()` returns the list the constructor stored, or the one the
      last `setLanguages` stored; setting the receiver does not touch it. */
  lemma GetLanguagesReadsBack(a: Api, locales: seq<Locale>, receiver: Receiver)
    ensures GetLanguages(NewApi(locales)) == if |locales| == 0 then [ENGLISH] else locales
    ensures GetLanguages(SetLanguages(a, locales)) == locales
    ensures GetLanguages(SetBroadcastReceiver(a, receiver)) == GetLanguages(a)
  {
  }

  /** `getBroadcastReceiver()` returns the everyone receiver after construction,
      and the last receiver set afterwards; setting the locales does not touch it. */
  lemma GetBroadcastReceiverReadsBack(a: Api, locales: seq<Locale>, receiver: Receiver)
    ensures GetBroadcastReceiver(NewApi(locales)) == Everyone
    ensures GetBroadcastReceiver(SetBroadcastReceiver(a, receiver)) == receiver
    ensures GetBroadcastReceiver(SetLanguages(a, locales)) == GetBroadcastReceiver(a)
  {
  }
}

=== FILE: delivery.dfy ===
/** Delivery of resolved messages: the `handleMessage` gate, the direct sends,
    the static broadcast that resolves once for everybody, and the batched
    `broadcastMessage` that resolves at most once per distinct locale. A
    receiver's `sendMessage` is modelled as appending to a delivery trace. */
module Delivery {
  import opened Wrappers
  import opened MessagesApi
  import opened Messages

  datatype Delivered<C> = Delivered(to: Receiver, component: C)

  /** Whether a send reported success, and what it delivered, in order. */
  datatype Report<C> = Report(sent: bool, delivered: seq<Delivered<C>>)

  /** `handleMessage(target, lang, component)`: the language argument is unused. */
  function Handle<C(!new)>(m: Message<C>, target: Receiver, component: Option<C>): (r: Report<C>)
    ensures r.sent <==> m.IsEnabled() && component.Some?
    ensures r.sent ==> r.delivered == [Delivered(target, component.value)]
    ensures !r.sent ==> r.delivered == []
  {
    if !m.IsEnabled() then Report(false, [])
    else if component.None? then Report(false, [])
    else Report(true, [Delivered(target, component.value)])
  }

  /** `sendMessage(target, lang, data)`: resolve, then pass through the gate. */
  function Send<C(!new)>(m: Message<C>, target: Receiver, lang: Option<Locale>, langs: seq<Locale>, pick: Picker, substitute: C -> C): (r: Report<C>)
    requires NeedsPrimary(m, lang) ==> |langs| > 0
    ensures |r.delivered| <= 1
    ensures r.sent <==> |r.delivered| == 1
    ensures r.sent ==> r.delivered[0].to == target
    ensures r.sent ==> exists c :: Holds(m, c) && r.delivered[0].component == substitute(c)
    ensures !m.IsEnabled() ==> !r.sent
  {
    Handle(m, target, Get(m, lang, langs, pick, substitute))
  }

  /** `sendMessage(target, data)`: the receiver's own preferred locale. */
  function SendPreferred<C(!new)>(m: Message<C>, target: Receiver, langs: seq<Locale>, pick: Picker, substitute: C -> C): (r: Report<C>)
    requires NeedsPrimary(m, target.PreferredLocale()) ==> |langs| > 0
    ensures r.sent <==> Get(m, target.PreferredLocale(), langs, pick, substitute).Some?
    ensures r.sent ==> r.delivered == [Delivered(target, Get(m, target.PreferredLocale(), langs, pick, substitute).value)]
    ensures !r.sent ==> r.delivered == []
    ensures !m.IsEnabled() ==> !r.sent
  {
    Send(m, target, target.PreferredLocale(), langs, pick, substitute)
  }

  /** A direct send succeeds exactly when resolution yields a component; the
      enabled check adds nothing, since the disabled shape never resolves. */
  lemma SendIffResolved<C(!new)>(m: Message<C>, target: Receiver, lang: Option<Locale>, langs: seq<Locale>, pick: Picker, substitute: C -> C)
    requires NeedsPrimary(m, lang) ==> |langs| > 0
    ensures Send(m, target, lang, langs, pick, substitute).sent <==> Get(m, lang, langs, pick, substitute).Some?
    ensures Send(m, target, lang, langs, pick, substitute).sent ==>
      Send(m, target, lang, langs, pick, substitute).delivered == [Delivered(target, Get(m, lang, langs, pick, substitute).value)]
  {
  }

  /** `targets.forEach(s -> handleMessage(s, lang, msg))`. */
  function DeliverAll<C(!new)>(m: Message<C>, targets: seq<Receiver>, c: C): (r: seq<Delivered<C>>)
    ensures m.IsEnabled() ==> |r| == |targets|
    ensures m.IsEnabled() ==> forall i :: 0 <= i < |targets| ==> r[i] == Delivered(targets[i], c)
    ensures !m.IsEnabled() ==> r == []
    decreases |targets|
  {
    if |targets| == 0 then []
    else DeliverAll(m, targets[..|targets| - 1], c) + Handle(m, targets[|targets| - 1], Some(c)).delivered
  }

  /** `broadcastStaticMessage(targets, lang, data)`: one resolution, and the
      same component to every target; success does not depend on how many
      targets there are. */
  function BroadcastStatic<C(!new)>(m: Message<C>, targets: seq<Receiver>, lang: Option<Locale>, langs: seq<Locale>, pick: Picker, substitute: C -> C): (r: Report<C>)
    requires NeedsPrimary(m, lang) ==> |langs| > 0
    ensures r.sent <==> Get(m, lang, langs, pick, substitute).Some?
    ensures !r.sent ==> r.delivered == []
    ensures r.sent ==> |r.delivered| == |targets|
    ensures r.sent ==> forall i :: 0 <= i < |targets| ==>
      r.delivered[i] == Delivered(targets[i], Get(m, lang, langs, pick, substitute).value)
  {
    var c := Get(m, lang, langs, pick, substitute);
    if c.None? then Report(false, []) else Report(true, DeliverAll(m, targets, c.value))
  }

  /** `broadcastStaticMessage(lang, data)`: one send to the API's broadcast receiver. */
  function BroadcastStaticToAll<C(!new)>(api: Api, m: Message<C>, lang: Option<Locale>, pick: Picker, substitute: C -> C): (r: Report<C>)
    requires NeedsPrimary(m, lang) ==> |GetLanguages(api)| > 0
    ensures r.sent <==> Get(m, lang, GetLanguages(api), pick, substitute).Some?
    ensures r.sent ==> r.delivered == [Delivered(GetBroadcastReceiver(api), Get(m, lang, GetLanguages(api), pick, substitute).value)]
    ensures !r.sent ==> r.delivered == []
  {
    Handle(m, GetBroadcastReceiver(api), Get(m, lang, GetLanguages(api), pick, substitute))
  }

  // ---------------------------------------------------------------------
  // The batched broadcast
  // ---------------------------------------------------------------------

  /** Every receiver's locale can be computed: either a primary locale exists
      or every receiver states a preference. */
  predicate LocalesKnown(targets: seq<Receiver>, langs: seq<Locale>) {
    |langs| > 0 || forall i :: 0 <= i < |targets| ==> targets[i].PreferredLocale().Some?
  }

  /** The locale a receiver is served in: its preference, else the primary locale. */
  function ReceiverLocale(t: Receiver, langs: seq<Locale>): Locale
    requires t.PreferredLocale().Some? || |langs| > 0
  {
    EffectiveLocale(t.PreferredLocale(), langs)
  }

  /** The distinct locales of a receiver sequence. */
  function ReceiverLocales(targets: seq<Receiver>, langs: seq<Locale>): set<Locale>
    requires LocalesKnown(targets, langs)
  {
    set i | 0 <= i < |targets| :: ReceiverLocale(targets[i], langs)
  }

  /** When the batched broadcast reads `getLanguages()[0]`: for a null default
      locale, for a receiver without preference, or inside resolution. */
  predicate BroadcastNeedsPrimary<C(!new)>(m: Message<C>, targets: seq<Receiver>, lang: Option<Locale>) {
    || lang.None?
    || (|targets| > 0 && (ContentNeedsPrimary(m) || exists i :: 0 <= i < |targets| && targets[i].PreferredLocale().None?))
  }

  /** The cache holds an entry for every receiver's locale, and for the
      default locale whenever some receiver's own entry is null. */
  ghost predicate Covered<C>(targets: seq<Receiver>, cache: map<Locale, Option<C>>, dl: Locale, langs: seq<Locale>) {
    && LocalesKnown(targets, langs)
    && forall i :: 0 <= i < |targets| ==>
         && ReceiverLocale(targets[i], langs) in cache
         && (cache[ReceiverLocale(targets[i], langs)].None? ==> dl in cache)
  }

  /** What a receiver gets from a cache: its locale's component, else the
      default locale's component, else nothing. */
  function Chosen<C>(cache: map<Locale, Option<C>>, l: Locale, dl: Locale): Option<C>
    requires l in cache && (cache[l].None? ==> dl in cache)
  {
    if cache[l].Some? then cache[l] else cache[dl]
  }

  /** The reference delivery trace: each receiver, in order, gets its chosen
      component when there is one. */
  ghost function Expected<C>(targets: seq<Receiver>, cache: map<Locale, Option<C>>, dl: Locale, langs: seq<Locale>): seq<Delivered<C>>
    requires Covered(targets, cache, dl, langs)
    decreases |targets|
  {
    if |targets| == 0 then []
    else
      var prefix := targets[..|targets| - 1];
      var t := targets[|targets| - 1];
      assert Covered(prefix, cache, dl, langs) by {
        assert forall i :: 0 <= i < |prefix| ==> prefix[i] == targets[i];
      }
      var rest := Expected(prefix, cache, dl, langs);
      var chosen := Chosen(cache, ReceiverLocale(t, langs), dl);
      if chosen.Some? then rest + [Delivered(t, chosen.value)] else rest
  }

  /** Each cached entry was resolved exactly once, in the order of `log`, and
      the k-th resolution used the k-th random draw. */
  ghost predicate CacheFaithful<C(!new)>(m: Message<C>, cache: map<Locale, Option<C>>, log: seq<Locale>, langs: seq<Locale>, draws: nat -> Picker, substitute: C -> C) {
    && (forall i, j :: 0 <= i < j < |log| ==> log[i] != log[j])
    && (forall l :: l in cache <==> l in log)
    && (|log| > 0 && ContentNeedsPrimary(m) ==> |langs| > 0)
    && forall k {:trigger draws(k)} :: 0 <= k < |log| ==> cache[log[k]] == Get(m, Some(log[k]), langs, draws(k), substitute)
  }

  /** Growing the cache does not change the reference trace of receivers it already covered. */
  lemma {:induction false} ExpectedStable<C>(targets: seq<Receiver>, cache: map<Locale, Option<C>>, cache': map<Locale, Option<C>>, dl: Locale, langs: seq<Locale>)
    requires Covered(targets, cache, dl, langs)
    requires forall l :: l in cache ==> l in cache' && cache'[l] == cache[l]
    ensures Covered(targets, cache', dl, langs)
    ensures Expected(targets, cache', dl, langs) == Expected(targets, cache, dl, langs)
    decreases |targets|
  {
    if |targets| > 0 {
      var prefix := targets[..|targets| - 1];
      assert forall i :: 0 <= i < |prefix| ==> prefix[i] == targets[i];
      ExpectedStable(prefix, cache, cache', dl, langs);
    }
  }

  /** The reference trace is non-empty exactly when some receiver has a chosen component. */
  lemma {:induction false} ExpectedNonEmptyIff<C>(targets: seq<Receiver>, cache: map<Locale, Option<C>>, dl: Locale, langs: seq<Locale>)
    requires Covered(targets, cache, dl, langs)
    ensures |Expected(targets, cache, dl, langs)| <= |targets|
    ensures |Expected(targets, cache, dl, langs)| > 0 <==>
      exists i :: 0 <= i < |targets| && Chosen(cache, ReceiverLocale(targets[i], langs), dl).Some?
    decreases |targets|
  {
    if |targets| > 0 {
      var prefix := targets[..|targets| - 1];
      assert forall i :: 0 <= i < |prefix| ==> prefix[i] == targets[i];
      ExpectedNonEmptyIff(prefix, cache, dl, langs);
      var last := |targets| - 1;
      if exists i :: 0 <= i < |prefix| && Chosen(cache, ReceiverLocale(prefix[i], langs), dl).Some? {
        var i :| 0 <= i < |prefix| && Chosen(cache, ReceiverLocale(prefix[i], langs), dl).Some?;
        assert Chosen(cache, ReceiverLocale(targets[i], langs), dl).Some?;
      }
    }
  }

  /** The reference resolution order: the locales in the order receivers first
      need them, each receiver needing its own locale and, when that entry is
      null, the default locale. */
  ghost function FirstNeed<C>(targets: seq<Receiver>, dl: Locale, langs: seq<Locale>, cache: map<Locale, Option<C>>): seq<Locale>
    requires Covered(targets, cache, dl, langs)
    decreases |targets|
  {
    if |targets| == 0 then []
    else
      var prefix := targets[..|targets| - 1];
      assert Covered(prefix, cache, dl, langs) by {
        assert forall i :: 0 <= i < |prefix| ==> prefix[i] == targets[i];
      }
      var prior := FirstNeed(prefix, dl, langs, cache);
      var l := ReceiverLocale(targets[|targets| - 1], langs);
      var withOwn := if l in prior then prior else prior + [l];
      if cache[l].None? && dl !in withOwn then withOwn + [dl] else withOwn
  }

  /** Growing the cache does not change the resolution order of receivers it already covered. */
  lemma {:induction false} FirstNeedStable<C>(targets: seq<Receiver>, cache: map<Locale, Option<C>>, cache': map<Locale, Option<C>>, dl: Locale, langs: seq<Locale>)
    requires Covered(targets, cache, dl, langs)
    requires forall l :: l in cache ==> l in cache' && cache'[l] == cache[l]
    ensures Covered(targets, cache', dl, langs)
    ensures FirstNeed(targets, dl, langs, cache') == FirstNeed(targets, dl, langs, cache)
    decreases |targets|
  {
    ExpectedStable(targets, cache, cache', dl, langs);
    if |targets| > 0 {
      var prefix := targets[..|targets| - 1];
      assert forall i :: 0 <= i < |prefix| ==> prefix[i] == targets[i];
      FirstNeedStable(prefix, cache, cache', dl, langs);
    }
  }

  /** The first receiver's locale is the first one resolved, so it takes the first draw. */
  lemma {:induction false} FirstNeedStartsWithFirstReceiver<C>(targets: seq<Receiver>, dl: Locale, langs: seq<Locale>, cache: map<Locale, Option<C>>)
    requires Covered(targets, cache, dl, langs)
    requires |targets| > 0
    ensures |FirstNeed(targets, dl, langs, cache)| > 0
    ensures FirstNeed(targets, dl, langs, cache)[0] == ReceiverLocale(targets[0], langs)
    decreases |targets|
  {
    var prefix := targets[..|targets| - 1];
    assert forall i :: 0 <= i < |prefix| ==> prefix[i] == targets[i];
    assert Covered(prefix, cache, dl, langs);
    if |prefix| > 0 {
      FirstNeedStartsWithFirstReceiver(prefix, dl, langs, cache);
    }
  }

  /** Serving receiver `i` extends the resolution order exactly as the reference says. */
  lemma {:induction false} FirstNeedStep<C>(targets: seq<Receiver>, i: nat, before: map<Locale, Option<C>>, cache: map<Locale, Option<C>>, dl: Locale, langs: seq<Locale>, log: seq<Locale>, log': seq<Locale>)
    requires i < |targets|
    requires LocalesKnown(targets, langs)
    requires Covered(targets[..i], before, dl, langs)
    requires forall k :: k in before ==> k in cache && cache[k] == before[k]
    requires ReceiverLocale(targets[i], langs) in cache
    requires cache[ReceiverLocale(targets[i], langs)].None? ==> dl in cache
    requires forall k :: k in before <==> k in log
    requires log == FirstNeed(targets[..i], dl, langs, before)
    requires var l := ReceiverLocale(targets[i], langs);
      log' == log + (if l in before then [] else [l]) + (if cache[l].None? && dl !in before && dl != l then [dl] else [])
    ensures Covered(targets[..i + 1], cache, dl, langs)
    ensures log' == FirstNeed(targets[..i + 1], dl, langs, cache)
  {
    FirstNeedStable(targets[..i], before, cache, dl, langs);
    ExpectedStep(targets, i, before, cache, dl, langs);
    assert targets[..i + 1][..i] == targets[..i];
    assert targets[..i + 1][i] == targets[i];
  }

  /** One cache lookup of the batched broadcast: a cached entry (even a null
      one) is reused; otherwise the locale is resolved with the next draw and
      the result is cached. */
  method CachedGet<C(!new)>(m: Message<C>, l: Locale, cache: map<Locale, Option<C>>, log: seq<Locale>, langs: seq<Locale>, draws: nat -> Picker, substitute: C -> C)
    returns (c: Option<C>, cache': map<Locale, Option<C>>, log': seq<Locale>)
    requires CacheFaithful(m, cache, log, langs, draws, substitute)
    requires ContentNeedsPrimary(m) ==> |langs| > 0
    ensures CacheFaithful(m, cache', log', langs, draws, substitute)
    ensures l in cache' && c == cache'[l]
    ensures forall k :: k in cache' <==> k in cache || k == l
    ensures forall k :: k in cache ==> cache'[k] == cache[k]
    ensures l in cache ==> log' == log
    ensures l !in cache ==> log' == log + [l] && c == Get(m, Some(l), langs, draws(|log|), substitute)
  {
    if l in cache {
      c, cache', log' := cache[l], cache, log;
    } else {
      c := Get(m, Some(l), langs, draws(|log|), substitute);
      cache' := cache[l := c];
      log' := log + [l];
      FaithfulExtend(m, cache, log, l, c, langs, draws, substitute);
    }
  }

  lemma FaithfulExtend<C(!new)>(m: Message<C>, cache: map<Locale, Option<C>>, log: seq<Locale>, l: Locale, c: Option<C>, langs: seq<Locale>, draws: nat -> Picker, substitute: C -> C)
    requires CacheFaithful(m, cache, log, langs, draws, substitute)
    requires l !in cache
    requires NeedsPrimary(m, Some(l)) ==> |langs| > 0
    requires c == Get(m, Some(l), langs, draws(|log|), substitute)
    ensures CacheFaithful(m, cache[l := c], log + [l], langs, draws, substitute)
  {
    var cache', log' := cache[l := c], log + [l];
    assert l !in log;
    forall i, j | 0 <= i < j < |log'| ensures log'[i] != log'[j] {
      if j == |log| {
        assert log'[i] == log[i];
      } else {
        assert log'[i] == log[i] && log'[j] == log[j];
      }
    }
    forall x ensures x in cache' <==> x in log' {
      assert x in log' <==> x in log || x == l;
    }
    forall k | 0 <= k < |log'| ensures cache'[log'[k]] == Get(m, Some(log'[k]), langs, draws(k), substitute) {
      if k < |log| {
        assert log'[k] == log[k];
        assert log[k] in cache;
      }
    }
  }

  /** Serving one receiver: look up its own locale, and on a null result the
      default locale, each through the cache. */
  method ServeReceiver<C(!new)>(m: Message<C>, l: Locale, dl: Locale, cache: map<Locale, Option<C>>, log: seq<Locale>, langs: seq<Locale>, draws: nat -> Picker, substitute: C -> C)
    returns (c: Option<C>, cache': map<Locale, Option<C>>, log': seq<Locale>)
    requires CacheFaithful(m, cache, log, langs, draws, substitute)
    requires ContentNeedsPrimary(m) ==> |langs| > 0
    ensures CacheFaithful(m, cache', log', langs, draws, substitute)
    ensures l in cache' && (cache'[l].None? ==> dl in cache')
    ensures c == Chosen(cache', l, dl)
    ensures forall k :: k in cache ==> k in cache' && cache'[k] == cache[k]
    ensures forall k :: k in cache' ==> k in cache || k == l || k == dl
    ensures cache'[l].Some? ==> forall k :: k in cache' ==> k in cache || k == l
    ensures log' == log + (if l in cache then [] else [l]) + (if cache'[l].None? && dl !in cache && dl != l then [dl] else [])
    ensures !m.IsEnabled() ==> c.None?
  {
    c, cache', log' := CachedGet(m, l, cache, log, langs, draws, substitute);
    ghost var own := if l in cache then [] else [l];
    assert log' == log + own;
    if c.None? {
      var cache1, log1 := cache', log';
      assert dl in cache1 <==> dl in cache || dl == l;
      c, cache', log' := CachedGet(m, dl, cache1, log1, langs, draws, substitute);
      assert cache'[l] == cache1[l];
      assert log' == log1 + (if dl in cache1 then [] else [dl]);
    }
    if !m.IsEnabled() {
      DisabledCachesNothing(m, cache', log', langs, draws, substitute);
    }
  }

  /** A disabled message caches only null results. */
  lemma DisabledCachesNothing<C(!new)>(m: Message<C>, cache: map<Locale, Option<C>>, log: seq<Locale>, langs: seq<Locale>, draws: nat -> Picker, substitute: C -> C)
    requires CacheFaithful(m, cache, log, langs, draws, substitute)
    requires !m.IsEnabled()
    ensures forall l :: l in cache ==> cache[l].None?
  {
    forall l | l in cache ensures cache[l].None? {
      var k :| 0 <= k < |log| && log[k] == l;
      assert cache[l] == Get(m, Some(l), langs, draws(k), substitute);
    }
  }

  /** One loop step of the batched broadcast keeps the trace equal to the
      reference trace of the receivers served so far. */
  lemma {:induction false} ExpectedStep<C>(targets: seq<Receiver>, i: nat, before: map<Locale, Option<C>>, cache: map<Locale, Option<C>>, dl: Locale, langs: seq<Locale>)
    requires i < |targets|
    requires LocalesKnown(targets, langs)
    requires Covered(targets[..i], before, dl, langs)
    requires forall k :: k in before ==> k in cache && cache[k] == before[k]
    requires ReceiverLocale(targets[i], langs) in cache
    requires cache[ReceiverLocale(targets[i], langs)].None? ==> dl in cache
    ensures Covered(targets[..i + 1], cache, dl, langs)
    ensures var chosen := Chosen(cache, ReceiverLocale(targets[i], langs), dl);
      Expected(targets[..i + 1], cache, dl, langs) ==
        Expected(targets[..i], before, dl, langs) + (if chosen.Some? then [Delivered(targets[i], chosen.value)] else [])
  {
    ExpectedStable(targets[..i], before, cache, dl, langs);
    assert targets[..i + 1][..i] == targets[..i];
    assert targets[..i + 1][i] == targets[i];
    assert forall j :: 0 <= j < i + 1 ==> targets[..i + 1][j] == targets[j];
  }

  /** The state of the batched broadcast after serving the first `i` receivers:
      the cache is faithful, covers them, holds only their locales and the
      default locale (the latter only when it is one of theirs or one of them
      resolved to null), and the trace is their reference trace. */
  ghost predicate Progress<C(!new)>(m: Message<C>, targets: seq<Receiver>, i: nat, dl: Locale, langs: seq<Locale>, draws: nat -> Picker, substitute: C -> C,
                                    cache: map<Locale, Option<C>>, log: seq<Locale>, delivered: seq<Delivered<C>>, sent: bool) {
    && i <= |targets|
    && LocalesKnown(targets, langs)
    && CacheFaithful(m, cache, log, langs, draws, substitute)
    && Covered(targets[..i], cache, dl, langs)
    && (forall l :: l in cache ==> l == dl || exists j :: 0 <= j < i && ReceiverLocale(targets[j], langs) == l)
    && (dl in cache ==>
          || (exists j :: 0 <= j < i && ReceiverLocale(targets[j], langs) == dl)
          || (exists j :: 0 <= j < i && ReceiverLocale(targets[j], langs) in cache && cache[ReceiverLocale(targets[j], langs)].None?))
    && (!m.IsEnabled() ==> delivered == [])
    && delivered == Expected(targets[..i], cache, dl, langs)
    && log == FirstNeed(targets[..i], dl, langs, cache)
    && (sent <==> |delivered| > 0)
  }

  /** One receiver of the batched broadcast: serve it through the cache, pass
      the result through the gate, and extend the trace. */
  method BroadcastStep<C(!new)>(m: Message<C>, targets: seq<Receiver>, i: nat, dl: Locale, langs: seq<Locale>, draws: nat -> Picker, substitute: C -> C,
                                cache: map<Locale, Option<C>>, log: seq<Locale>, delivered: seq<Delivered<C>>, sent: bool)
    returns (cache': map<Locale, Option<C>>, log': seq<Locale>, delivered': seq<Delivered<C>>, sent': bool)
    requires i < |targets|
    requires ContentNeedsPrimary(m) ==> |langs| > 0
    requires Progress(m, targets, i, dl, langs, draws, substitute, cache, log, delivered, sent)
    ensures Progress(m, targets, i + 1, dl, langs, draws, substitute, cache', log', delivered', sent')
  {
    var t := targets[i];
    var l := ReceiverLocale(t, langs);
    var c: Option<C>;
    c, cache', log' := ServeReceiver(m, l, dl, cache, log, langs, draws, substitute);
    var report := Handle(m, t, c);
    delivered' := delivered + report.delivered;
    sent' := sent || report.sent;
    ExpectedStep(targets, i, cache, cache', dl, langs);
    FirstNeedStep(targets, i, cache, cache', dl, langs, log, log');
    forall k | k in cache' ensures k == dl || exists j :: 0 <= j < i + 1 && ReceiverLocale(targets[j], langs) == k {
      if k !in cache && k != dl {
        assert ReceiverLocale(targets[i], langs) == k;
      }
    }
    DefaultOnlyOnNull(targets, i, dl, langs, cache, cache');
  }

  /** The default locale enters the cache in step `i` only as receiver `i`'s own
      locale or because receiver `i`'s own entry is null. */
  lemma DefaultOnlyOnNull<C>(targets: seq<Receiver>, i: nat, dl: Locale, langs: seq<Locale>, cache: map<Locale, Option<C>>, cache': map<Locale, Option<C>>)
    requires i < |targets| && LocalesKnown(targets, langs)
    requires dl in cache ==>
      || (exists j :: 0 <= j < i && ReceiverLocale(targets[j], langs) == dl)
      || (exists j :: 0 <= j < i && ReceiverLocale(targets[j], langs) in cache && cache[ReceiverLocale(targets[j], langs)].None?)
    requires forall k :: k in cache ==> k in cache' && cache'[k] == cache[k]
    requires ReceiverLocale(targets[i], langs) in cache'
    requires cache'[ReceiverLocale(targets[i], langs)].Some? ==> forall k :: k in cache' ==> k in cache || k == ReceiverLocale(targets[i], langs)
    ensures dl in cache' ==>
      || (exists j :: 0 <= j < i + 1 && ReceiverLocale(targets[j], langs) == dl)
      || (exists j :: 0 <= j < i + 1 && ReceiverLocale(targets[j], langs) in cache' && cache'[ReceiverLocale(targets[j], langs)].None?)
  {
    if dl in cache' {
      if dl in cache {
        if j :| 0 <= j < i && ReceiverLocale(targets[j], langs) in cache && cache[ReceiverLocale(targets[j], langs)].None? {
          assert cache'[ReceiverLocale(targets[j], langs)].None?;
        }
      } else if cache'[ReceiverLocale(targets[i], langs)].Some? {
        assert ReceiverLocale(targets[i], langs) == dl;
      }
    }
  }

  /** What the finished loop of the batched broadcast establishes, for all receivers. */
  lemma BroadcastOutcome<C(!new)>(m: Message<C>, targets: seq<Receiver>, dl: Locale, langs: seq<Locale>, draws: nat -> Picker, substitute: C -> C,
                                  cache: map<Locale, Option<C>>, log: seq<Locale>, delivered: seq<Delivered<C>>, sent: bool)
    requires Progress(m, targets, |targets|, dl, langs, draws, substitute, cache, log, delivered, sent)
    ensures CacheFaithful(m, cache, log, langs, draws, substitute)
    ensures Covered(targets, cache, dl, langs)
    ensures forall l :: l in cache ==> l == dl || l in ReceiverLocales(targets, langs)
    ensures dl in cache ==> dl in ReceiverLocales(targets, langs) || exists i :: 0 <= i < |targets| && cache[ReceiverLocale(targets[i], langs)].None?
    ensures delivered == Expected(targets, cache, dl, langs)
    ensures log == FirstNeed(targets, dl, langs, cache)
    ensures sent <==> |delivered| > 0
    ensures sent <==> exists i :: 0 <= i < |targets| && Chosen(cache, ReceiverLocale(targets[i], langs), dl).Some?
    ensures !m.IsEnabled() ==> !sent && delivered == []
  {
    assert targets[..|targets|] == targets;
    ExpectedNonEmptyIff(targets, cache, dl, langs);
  }

  /** `broadcastMessage(targets, lang, data)`. The default locale `lang`
      (primary when null) backs up receivers whose own locale resolves to null.
      `log` lists the locales resolved, in order; `cache` their results. */
  method BroadcastMessage<C(!new)>(m: Message<C>, targets: seq<Receiver>, lang: Option<Locale>, langs: seq<Locale>, draws: nat -> Picker, substitute: C -> C)
    returns (sent: bool, delivered: seq<Delivered<C>>, cache: map<Locale, Option<C>>, log: seq<Locale>)
    requires BroadcastNeedsPrimary(m, targets, lang) ==> |langs| > 0
    ensures lang.Some? || |langs| > 0
    ensures CacheFaithful(m, cache, log, langs, draws, substitute)
    ensures Covered(targets, cache, EffectiveLocale(lang, langs), langs)
    ensures forall l :: l in cache ==> l == EffectiveLocale(lang, langs) || l in ReceiverLocales(targets, langs)
    ensures EffectiveLocale(lang, langs) in cache ==>
      || EffectiveLocale(lang, langs) in ReceiverLocales(targets, langs)
      || exists i :: 0 <= i < |targets| && cache[ReceiverLocale(targets[i], langs)].None?
    ensures delivered == Expected(targets, cache, EffectiveLocale(lang, langs), langs)
    ensures log == FirstNeed(targets, EffectiveLocale(lang, langs), langs, cache)
    ensures sent <==> |delivered| > 0
    ensures sent <==> exists i :: 0 <= i < |targets| && Chosen(cache, ReceiverLocale(targets[i], langs), EffectiveLocale(lang, langs)).Some?
    ensures |targets| == 0 ==> !sent && log == []
    ensures !m.IsEnabled() ==> !sent && delivered == []
  {
    var dl := if lang.Some? then lang.value else langs[0];
    cache := map[];
    log := [];
    delivered := [];
    sent := false;
    var i := 0;
    while i < |targets|
      invariant Progress(m, targets, i, dl, langs, draws, substitute, cache, log, delivered, sent)
    {
      cache, log, delivered, sent := BroadcastStep(m, targets, i, dl, langs, draws, substitute, cache, log, delivered, sent);
      i := i + 1;
    }
    BroadcastOutcome(m, targets, dl, langs, draws, substitute, cache, log, delivered, sent);
  }

  // ---------------------------------------------------------------------
  // Batching is transparent for messages without random parts
  // ---------------------------------------------------------------------

  /** Without a random part, resolution does not depend on the draw. */
  lemma ResolutionIgnoresDraw<C(!new)>(m: Message<C>, lang: Option<Locale>, langs: seq<Locale>, p: Picker, q: Picker, substitute: C -> C)
    requires NeedsPrimary(m, lang) ==> |langs| > 0
    requires !m.HasRandomPart()
    ensures Get(m, lang, langs, p, substitute) == Get(m, lang, langs, q, substitute)
  {
  }

  /** The per-receiver reference without any cache: resolve the receiver's
      locale, fall back to resolving the default locale. */
  function Direct<C(!new)>(m: Message<C>, targets: seq<Receiver>, dl: Locale, langs: seq<Locale>, pick: Picker, substitute: C -> C): seq<Delivered<C>>
    requires LocalesKnown(targets, langs)
    requires ContentNeedsPrimary(m) ==> |langs| > 0
    decreases |targets|
  {
    if |targets| == 0 then []
    else
      var t := targets[|targets| - 1];
      var own := Get(m, Some(ReceiverLocale(t, langs)), langs, pick, substitute);
      var chosen := if own.Some? then own else Get(m, Some(dl), langs, pick, substitute);
      var rest := Direct(m, targets[..|targets| - 1], dl, langs, pick, substitute);
      if chosen.Some? then rest + [Delivered(t, chosen.value)] else rest
  }

  lemma CachedIsResolution<C(!new)>(m: Message<C>, cache: map<Locale, Option<C>>, log: seq<Locale>, langs: seq<Locale>, draws: nat -> Picker, pick: Picker, substitute: C -> C, l: Locale)
    requires CacheFaithful(m, cache, log, langs, draws, substitute)
    requires !m.HasRandomPart()
    requires l in cache
    ensures cache[l] == Get(m, Some(l), langs, pick, substitute)
  {
    var k :| 0 <= k < |log| && log[k] == l;
    ResolutionIgnoresDraw(m, Some(l), langs, draws(k), pick, substitute);
  }

  /** For a message without random parts, the batched broadcast delivers to
      every receiver exactly what a cache-free per-receiver resolution would. */
  lemma {:induction false} BatchedMatchesDirect<C(!new)>(m: Message<C>, targets: seq<Receiver>, cache: map<Locale, Option<C>>, log: seq<Locale>, dl: Locale, langs: seq<Locale>, draws: nat -> Picker, pick: Picker, substitute: C -> C)
    requires CacheFaithful(m, cache, log, langs, draws, substitute)
    requires Covered(targets, cache, dl, langs)
    requires ContentNeedsPrimary(m) ==> |langs| > 0
    requires !m.HasRandomPart()
    ensures Expected(targets, cache, dl, langs) == Direct(m, targets, dl, langs, pick, substitute)
    decreases |targets|
  {
    if |targets| > 0 {
      var prefix := targets[..|targets| - 1];
      assert forall i :: 0 <= i < |prefix| ==> prefix[i] == targets[i];
      BatchedMatchesDirect(m, prefix, cache, log, dl, langs, draws, pick, substitute);
      var t := targets[|targets| - 1];
      var l := ReceiverLocale(t, langs);
      CachedIsResolution(m, cache, log, langs, draws, pick, substitute, l);
      if cache[l].None? {
        CachedIsResolution(m, cache, log, langs, draws, pick, substitute, dl);
      }
    }
  }
}

=== FILE: loader.dfy ===
/** The two `Message.load` overloads: one raw configuration value, or a map
    from locale to raw value. The parser `ComponentSerializer.safeParse(text, '&')`
    is the injected `parse`; its array form is taken to parse element by element. */
module Loader {
  import opened Wrappers
  import opened MessagesApi
  import opened Messages

  /** A raw configuration value as the loaders see it. A collection carries
      the `toString()` of each element in iteration order; `Other` carries the
      `toString()` of any other object. */
  datatype Raw =
    | Null
    | Bool(b: bool)
    | Str(s: string)
    | StrArray(items: seq<string>)
    | Coll(items: seq<string>)
    | Other(text: string)
  {
    /** String[] or Collection: loaded as a sequence of texts. */
    predicate IsSequence() {
      StrArray? || Coll?
    }

    /** Anything else that is not null: loaded as one text. */
    predicate IsScalar() {
      Bool? || Str? || Other?
    }

    /** The text of a scalar value: the string itself, or `toString()`. */
    function ScalarText(): string
      requires IsScalar()
    {
      match this
      case Bool(b) => if b then "true" else "false"
      case Str(s) => s
      case Other(t) => t
    }
  }

  /** The load failures: `NoLanguages` is the "No languages enabled" exception,
      `NullValue` the NullPointerException raised by `toString()` on null. */
  datatype LoadError = NoLanguages | NullValue

  /** `load(api, Object)`: Boolean false is disabled, a string is simple, an
      array or collection is simple-random, anything else is simple of its
      `toString()`. */
  function LoadValue<C(!new)>(v: Raw, parse: string -> C): (r: Result<Message<C>, LoadError>)
    ensures r.Failure? <==> v.Null?
    ensures r.Failure? ==> r.error == NullValue
    ensures v == Bool(false) <==> r == Success(Disabled)
    ensures v.IsScalar() && v != Bool(false) ==> r == Success(Simple(parse(v.ScalarText())))
    ensures v.IsSequence() ==>
      && r.Success? && r.value.SimpleRandom?
      && |r.value.msgs| == |v.items|
      && forall i :: 0 <= i < |v.items| ==> r.value.msgs[i] == parse(v.items[i])
    ensures r.Success? ==> !r.value.IsLocalizedShape()
  {
    match v
    case Null => Failure(NullValue)
    case Bool(b) => if !b then Success(Disabled) else Success(Simple(parse("true")))
    case Str(s) => Success(Simple(parse(s)))
    case StrArray(items) => Success(SimpleRandom(MapSeq(items, parse)))
    case Coll(items) => Success(SimpleRandom(MapSeq(items, parse)))
    case Other(t) => Success(Simple(parse(t)))
  }

  /** In a one-entry map, every key is the same key. */
  lemma SingletonKey<V>(objects: map<Locale, V>, a: Locale, b: Locale)
    requires |objects| == 1 && a in objects && b in objects
    ensures a == b
  {
    if a != b {
      assert {a, b} <= objects.Keys;
      assert |{a, b}| == 2;
      SubsetCardinality({a, b}, objects.Keys);
    }
  }

  lemma SubsetCardinality<T>(a: set<T>, b: set<T>)
    requires a <= b
    ensures |a| <= |b|
  {
    assert b == a + (b - a);
  }

  /** The singular partition of a multi-locale map: every scalar value, parsed. */
  function SingularPart<C>(objects: map<Locale, Raw>, parse: string -> C): (r: map<Locale, C>)
    ensures forall l :: l in r <==> l in objects && objects[l].IsScalar()
    ensures forall l :: l in r ==> r[l] == parse(objects[l].ScalarText())
  {
    map l | l in objects && objects[l].IsScalar() :: parse(objects[l].ScalarText())
  }

  /** The sequence partition: every array or collection value, parsed in order. */
  function SequencePart<C>(objects: map<Locale, Raw>, parse: string -> C): (r: map<Locale, seq<C>>)
    ensures forall l :: l in r <==> l in objects && objects[l].IsSequence()
    ensures forall l :: l in r ==>
      && objects[l].IsSequence()
      && |r[l]| == |objects[l].items|
      && forall i :: 0 <= i < |objects[l].items| ==> r[l][i] == parse(objects[l].items[i])
  {
    map l | l in objects && objects[l].IsSequence() :: MapSeq(objects[l].items, parse)
  }

  predicate HasNull(objects: map<Locale, Raw>) {
    exists l :: l in objects && objects[l].Null?
  }

  /** `load(api, Map<Locale, Object>)`. */
  function LoadLocalized<C(!new)>(objects: map<Locale, Raw>, parse: string -> C): (r: Result<Message<C>, LoadError>)
    ensures |objects| == 0 ==> r == Failure(NoLanguages)
    ensures |objects| == 1 ==> forall l :: l in objects ==> r == LoadValue(objects[l], parse)
    ensures |objects| >= 2 ==> (r.Failure? <==> HasNull(objects))
    ensures |objects| >= 2 && r.Success? ==>
      && r.value.IsLocalizedShape()
      && (r.value.Localized? <==> SequencePart(objects, parse) == map[])
      && (r.value.LocalizedRandom? <==> SingularPart(objects, parse) == map[])
      && (r.value.Localized? || r.value.LocalizedMixed? ==> r.value.single == SingularPart(objects, parse))
      && (r.value.LocalizedRandom? || r.value.LocalizedMixed? ==> r.value.multi == SequencePart(objects, parse))
  {
    if |objects| == 0 then Failure(NoLanguages)
    else if |objects| == 1 then
      var l :| l in objects;
      assert forall k :: k in objects ==> k == l by {
        forall k | k in objects { SingletonKey(objects, k, l); }
      }
      LoadValue(objects[l], parse)
    else if HasNull(objects) then Failure(NullValue)
    else
      var single := SingularPart(objects, parse);
      var multi := SequencePart(objects, parse);
      // The source's "both parts empty" failure cannot arise here: every
      // null-free value is scalar or sequence (see PartitionCovers).
      if |single| == 0 then Success(LocalizedRandom(multi))
      else if |multi| == 0 then Success(Localized(single))
      else Success(LocalizedMixed(single, multi))
  }

  /** The shapes a multi-locale load can produce carry at least two locales in
      all, and a mixed one holds each locale in exactly one of its parts. */
  predicate WellFormed<C(!new)>(m: Message<C>) {
    match m
    case Localized(s) => |s| >= 2
    case LocalizedRandom(ms) => |ms| >= 2
    case LocalizedMixed(s, ms) => |s| > 0 && |ms| > 0 && s.Keys !! ms.Keys
    case _ => true
  }

  /** Partitioning a null-free map puts every locale in exactly one part. */
  lemma PartitionCovers<C>(objects: map<Locale, Raw>, parse: string -> C)
    requires !HasNull(objects)
    ensures SingularPart(objects, parse).Keys !! SequencePart(objects, parse).Keys
    ensures SingularPart(objects, parse).Keys + SequencePart(objects, parse).Keys == objects.Keys
  {
    var s := SingularPart(objects, parse);
    var ms := SequencePart(objects, parse);
    forall l | l in objects ensures l in s || l in ms {
      assert !objects[l].Null?;
    }
  }

  /** Every message the locale-map loader produces is well formed. */
  lemma {:induction false} LoadedIsWellFormed<C(!new)>(objects: map<Locale, Raw>, parse: string -> C)
    requires LoadLocalized(objects, parse).Success?
    ensures WellFormed(LoadLocalized(objects, parse).value)
  {
    if |objects| >= 2 {
      var s := SingularPart(objects, parse);
      var ms := SequencePart(objects, parse);
      PartitionCovers(objects, parse);
      if |ms| == 0 {
        assert s.Keys == objects.Keys;
      } else if |s| == 0 {
        assert ms.Keys == objects.Keys;
      }
    }
  }

  /** A one-entry map never yields a localized shape. */
  lemma SingleEntryIsNotLocalized<C(!new)>(l: Locale, v: Raw, parse: string -> C)
    ensures LoadLocalized(map[l := v], parse) == LoadValue(v, parse)
    ensures LoadLocalized(map[l := v], parse).Success? ==> !LoadLocalized(map[l := v], parse).value.IsLocalizedShape()
  {
    assert l in map[l := v];
  }

  /** With two or more locales, all-string input gives Localized, all-sequence
      input gives LocalizedRandom, and input with both gives LocalizedMixed. */
  lemma {:induction false} MultiLocaleShape<C(!new)>(objects: map<Locale, Raw>, parse: string -> C)
    requires |objects| >= 2 && !HasNull(objects)
    ensures (forall l :: l in objects ==> objects[l].IsScalar()) ==> LoadLocalized(objects, parse).value.Localized?
    ensures (forall l :: l in objects ==> objects[l].IsSequence()) ==> LoadLocalized(objects, parse).value.LocalizedRandom?
    ensures (exists a :: a in objects && objects[a].IsScalar()) && (exists b :: b in objects && objects[b].IsSequence()) ==>
      LoadLocalized(objects, parse).value.LocalizedMixed?
  {
    var s := SingularPart(objects, parse);
    var ms := SequencePart(objects, parse);
    var l :| l in objects;
    if forall k :: k in objects ==> objects[k].IsScalar() {
      assert l in s;
      assert ms == map[];
    }
    if forall k :: k in objects ==> objects[k].IsSequence() {
      assert l in ms;
      assert s == map[];
    }
    if (exists a :: a in objects && objects[a].IsScalar()) && (exists b :: b in objects && objects[b].IsSequence()) {
      var a :| a in objects && objects[a].IsScalar();
      var b :| b in objects && objects[b].IsSequence();
      assert a in s && b in ms;
    }
  }

  /** Boolean `false` disables a message only as a single value: inside a map
      of two or more locales it is an ordinary text, "false". */
  lemma {:induction false} FalseInMapIsText<C(!new)>(objects: map<Locale, Raw>, parse: string -> C, l: Locale)
    requires |objects| >= 2 && !HasNull(objects)
    requires l in objects && objects[l] == Bool(false)
    ensures LoadLocalized(objects, parse).Success?
    ensures LoadLocalized(objects, parse).value.IsEnabled()
    ensures l in LoadLocalized(objects, parse).value.single
    ensures LoadLocalized(objects, parse).value.single[l] == parse("false")
  {
    var s := SingularPart(objects, parse);
    assert l in s;
  }

  /** Unfolds the multi-locale branch of `LoadLocalized` in terms of the two
      partitions, for callers that know the partitions but not the raw map. */
  lemma LoadFromParts<C(!new)>(objects: map<Locale, Raw>, parse: string -> C)
    requires |objects| >= 2 && !HasNull(objects)
    ensures var s := SingularPart(objects, parse);
      var ms := SequencePart(objects, parse);
      LoadLocalized(objects, parse) ==
        if |s| == 0 then Success(LocalizedRandom(ms))
        else if |ms| == 0 then Success(Localized(s))
        else Success(LocalizedMixed(s, ms))
  {
  }
}

=== FILE: message.dfy ===
/** The six message shapes of Message.java and their resolution `get(locale)`.

    The rich-text component is the type parameter `C`. Placeholder replacement
    (`replace` with the message's placeholder table and the call's data) is the
    injected function `substitute`, and `java.util.Random.nextInt(n)` is the
    injected `Picker`. */
module Messages {
  import opened Wrappers
  import opened MessagesApi

  /** One draw of `nextInt(n)`: an index in [0, n), defined only for positive
      n, since `nextInt(0)` throws. Every draw must therefore prove its bound
      is positive. */
  type Picker = f: nat --> nat | forall n: nat :: 0 < n ==> f.requires(n) && f(n) < n
    witness (n: nat) requires 0 < n => 0

  datatype Message<C(!new)> =
    | Disabled
    | Simple(msg: C)
    | SimpleRandom(msgs: seq<C>)
    | Localized(single: map<Locale, C>)
    | LocalizedRandom(multi: map<Locale, seq<C>>)
    | LocalizedMixed(single: map<Locale, C>, multi: map<Locale, seq<C>>)
  {
    /** isEnabled(): false only for the disabled shape. */
    predicate IsEnabled() {
      !Disabled?
    }

    /** The shapes that hold a per-locale mapping. */
    predicate IsLocalizedShape() {
      Localized? || LocalizedRandom? || LocalizedMixed?
    }

    /** The shapes whose resolution draws a random index. */
    predicate HasRandomPart() {
      SimpleRandom? || LocalizedRandom? || LocalizedMixed?
    }
  }

  /** `c` is one of the components the message holds. */
  ghost predicate Holds<C(!new)>(m: Message<C>, c: C) {
    match m
    case Disabled => false
    case Simple(x) => c == x
    case SimpleRandom(cs) => c in cs
    case Localized(s) => c in s.Values
    case LocalizedRandom(ms) => exists l :: l in ms && c in ms[l]
    case LocalizedMixed(s, ms) => c in s.Values || exists l :: l in ms && c in ms[l]
  }

  /** Whether resolving for a given (non-null) locale reads
      `getLanguages()[0]`: Localized and LocalizedRandom return null on an
      empty map before reading it, LocalizedMixed reads it whenever either of
      its maps is non-empty. */
  predicate ContentNeedsPrimary<C(!new)>(m: Message<C>) {
    match m
    case Localized(s) => |s| > 0
    case LocalizedRandom(ms) => |ms| > 0
    case LocalizedMixed(s, ms) => |s| > 0 || |ms| > 0
    case _ => false
  }

  /** Whether `get(lang)` reads `getLanguages()[0]`, so that an empty locale
      list makes it throw; LocalizedMixed also reads it for a null locale. */
  predicate NeedsPrimary<C(!new)>(m: Message<C>, lang: Option<Locale>) {
    ContentNeedsPrimary(m) || (lang.None? && m.LocalizedMixed?)
  }

  /** `map.getOrDefault(key, map.get(primary))`, with an absent value as None. */
  function Lookup<V>(m: map<Locale, V>, key: Locale, primary: Locale): (r: Option<V>)
    ensures r.Some? <==> key in m || primary in m
    ensures key in m ==> r == Some(m[key])
    ensures key !in m && primary in m ==> r == Some(m[primary])
  {
    if key in m then Some(m[key]) else if primary in m then Some(m[primary]) else None
  }

  /** `cs[random.nextInt(cs.length)]`, or None for an empty sequence. */
  function PickFrom<C(!new)>(cs: seq<C>, pick: Picker): (r: Option<C>)
    ensures r.Some? <==> |cs| > 0
    ensures r.Some? ==> r.value in cs
  {
    if |cs| == 0 then None else Some(cs[pick(|cs|)])
  }

  /** The singular lookup of Localized.get before substitution. */
  function SelectSingle<C(!new)>(s: map<Locale, C>, lang: Option<Locale>, langs: seq<Locale>): Option<C>
    requires |s| > 0 ==> |langs| > 0
  {
    if |s| == 0 then None
    else if lang.None? then Lookup(s, langs[0], langs[0])
    else Lookup(s, lang.value, langs[0])
  }

  /** The sequence lookup and random pick of LocalizedRandom.get before substitution. */
  function SelectRandom<C(!new)>(ms: map<Locale, seq<C>>, lang: Option<Locale>, langs: seq<Locale>, pick: Picker): Option<C>
    requires |ms| > 0 ==> |langs| > 0
  {
    if |ms| == 0 then None
    else
      var selected := if lang.None? then Lookup(ms, langs[0], langs[0]) else Lookup(ms, lang.value, langs[0]);
      if selected.None? then None else PickFrom(selected.value, pick)
  }

  /** `get(lang, data)` for every shape. */
  function Get<C(!new)>(m: Message<C>, lang: Option<Locale>, langs: seq<Locale>, pick: Picker, substitute: C -> C): (r: Option<C>)
    requires NeedsPrimary(m, lang) ==> |langs| > 0
    ensures !m.IsEnabled() ==> r.None?
    ensures r.Some? ==> exists c :: Holds(m, c) && r.value == substitute(c)
  {
    match m
    case Disabled => None
    case Simple(c) => Some(substitute(c))
    case SimpleRandom(cs) =>
      var c := PickFrom(cs, pick);
      if c.None? then None else Some(substitute(c.value))
    case Localized(s) =>
      var c := SelectSingle(s, lang, langs);
      if c.None? then None else Some(substitute(c.value))
    case LocalizedRandom(ms) =>
      var c := SelectRandom(ms, lang, langs, pick);
      if c.None? then None
      else
        assert Holds(m, c.value) by { RandomSelectionHeld(ms, lang, langs, pick); }
        Some(substitute(c.value))
    case LocalizedMixed(s, ms) =>
      var key := if lang.Some? then lang.value else langs[0];
      var single := if |s| > 0 then Lookup(s, key, langs[0]) else None;
      if single.Some? then Some(substitute(single.value))
      else if |ms| == 0 then None
      else
        var c := SelectRandom(ms, Some(key), langs, pick);
        if c.None? then None
        else
          assert Holds(m, c.value) by { RandomSelectionHeld(ms, Some(key), langs, pick); }
          Some(substitute(c.value))
  }

  /** A random selection is one of the components stored under some locale. */
  lemma RandomSelectionHeld<C(!new)>(ms: map<Locale, seq<C>>, lang: Option<Locale>, langs: seq<Locale>, pick: Picker)
    requires |ms| > 0 ==> |langs| > 0
    requires SelectRandom(ms, lang, langs, pick).Some?
    ensures exists l :: l in ms && SelectRandom(ms, lang, langs, pick).value in ms[l]
  {
    var key := if lang.None? then langs[0] else lang.value;
    var l := if key in ms then key else langs[0];
    assert l in ms && SelectRandom(ms, lang, langs, pick).value in ms[l];
  }

  // ---------------------------------------------------------------------
  // Properties of resolution
  // ---------------------------------------------------------------------

  /** The disabled message never yields a component and reports itself disabled. */
  lemma DisabledNeverResolves<C(!new)>(lang: Option<Locale>, langs: seq<Locale>, pick: Picker, substitute: C -> C)
    ensures Get(Disabled, lang, langs, pick, substitute).None?
    ensures !Message<C>.Disabled.IsEnabled()
  {
  }

  /** A null locale means the primary locale, for every shape. */
  lemma NullLocaleIsPrimary<C(!new)>(m: Message<C>, langs: seq<Locale>, pick: Picker, substitute: C -> C)
    requires |langs| > 0
    ensures Get(m, None, langs, pick, substitute) == Get(m, Some(Primary(langs)), langs, pick, substitute)
  {
  }

  /** The simple shapes ignore the requested locale. */
  lemma SimpleShapesIgnoreLocale<C(!new)>(m: Message<C>, lang: Option<Locale>, other: Option<Locale>, langs: seq<Locale>, pick: Picker, substitute: C -> C)
    requires m.Disabled? || m.Simple? || m.SimpleRandom?
    ensures Get(m, lang, langs, pick, substitute) == Get(m, other, langs, pick, substitute)
  {
  }

  /** SimpleRandom yields a component exactly when its sequence is non-empty,
      and that component is the substituted element at the drawn index. */
  lemma SimpleRandomPicksInRange<C(!new)>(cs: seq<C>, lang: Option<Locale>, langs: seq<Locale>, pick: Picker, substitute: C -> C)
    ensures Get(SimpleRandom(cs), lang, langs, pick, substitute).Some? <==> |cs| > 0
    ensures |cs| > 0 ==>
      && 0 <= pick(|cs|) < |cs|
      && Get(SimpleRandom(cs), lang, langs, pick, substitute) == Some(substitute(cs[pick(|cs|)]))
  {
  }

  /** Localized: a locale missing from the map gets the primary locale's
      entry; a present locale gets its own; an empty map or a missing primary
      entry for a missing locale gives null. */
  lemma LocalizedFallback<C(!new)>(s: map<Locale, C>, l: Locale, langs: seq<Locale>, pick: Picker, substitute: C -> C)
    requires |langs| > 0
    ensures l in s ==> Get(Localized(s), Some(l), langs, pick, substitute) == Some(substitute(s[l]))
    ensures l !in s ==> Get(Localized(s), Some(l), langs, pick, substitute) == Get(Localized(s), Some(Primary(langs)), langs, pick, substitute)
    ensures Get(Localized(s), Some(l), langs, pick, substitute).None? <==> l !in s && Primary(langs) !in s
  {
  }

  /** LocalizedRandom: the same fallback to the primary locale, and null when
      the selected sequence is missing or empty; otherwise the pick is an
      in-range element of the selected sequence. */
  lemma LocalizedRandomFallback<C(!new)>(ms: map<Locale, seq<C>>, l: Locale, langs: seq<Locale>, pick: Picker, substitute: C -> C)
    requires |langs| > 0
    ensures l !in ms ==> Get(LocalizedRandom(ms), Some(l), langs, pick, substitute) == Get(LocalizedRandom(ms), Some(Primary(langs)), langs, pick, substitute)
    ensures l in ms ==> (Get(LocalizedRandom(ms), Some(l), langs, pick, substitute).None? <==> |ms[l]| == 0)
    ensures l in ms && |ms[l]| > 0 ==>
      && pick(|ms[l]|) < |ms[l]|
      && Get(LocalizedRandom(ms), Some(l), langs, pick, substitute) == Some(substitute(ms[l][pick(|ms[l]|)]))
    ensures l !in ms && Primary(langs) !in ms ==> Get(LocalizedRandom(ms), Some(l), langs, pick, substitute).None?
  {
  }

  /** LocalizedMixed behaves as its singular part whenever that part yields a
      component, and as its sequence part otherwise (null when both miss). */
  lemma MixedPrefersSingular<C(!new)>(s: map<Locale, C>, ms: map<Locale, seq<C>>, lang: Option<Locale>, langs: seq<Locale>, pick: Picker, substitute: C -> C)
    requires |langs| > 0
    ensures var single := Get(Localized(s), lang, langs, pick, substitute);
      Get(LocalizedMixed(s, ms), lang, langs, pick, substitute) ==
        if single.Some? then single else Get(LocalizedRandom(ms), lang, langs, pick, substitute)
  {
    var key := if lang.Some? then lang.value else langs[0];
    if lang.None? {
      NullLocaleIsPrimary(Localized(s), langs, pick, substitute);
      NullLocaleIsPrimary(LocalizedRandom(ms), langs, pick, substitute);
    }
  }

  /** As written, the singular lookup of LocalizedMixed falls back to the
      primary locale's singular entry before the requested locale's own
      sequence is consulted: a locale held only in the sequence part is
      answered from the primary's singular entry when there is one. */
  lemma MixedSingularShadowsOwnSequence<C(!new)>(s: map<Locale, C>, ms: map<Locale, seq<C>>, l: Locale, langs: seq<Locale>, pick: Picker, substitute: C -> C)
    requires |langs| > 0
    requires l !in s && l in ms && Primary(langs) in s
    ensures Get(LocalizedMixed(s, ms), Some(l), langs, pick, substitute) == Some(substitute(s[Primary(langs)]))
  {
  }
}

=== FILE: persistence.dfy ===
/** `toMap`: writing a message back into per-locale sections of a language
    file. The store maps a locale to its section, a section maps a message
    key (`node`) to a persisted value. The component encoding (legacy text
    when `canBeLegacy()`, structured text otherwise) is the injected `encode`. */
module Persistence {
  import opened Wrappers
  import opened MessagesApi
  import opened Messages
  import opened Loader

  datatype Persisted = Flag(b: bool) | Text(s: string) | Texts(items: seq<string>)

  type Section = map<string, Persisted>

  type Store = map<Locale, Section>

  /** The section of a locale, or a fresh empty one when it is absent. */
  function SectionOf(out: Store, l: Locale): Section {
    if l in out then out[l] else map[]
  }

  /** `after` agrees with `before` on every key other than `node`. */
  ghost predicate SameExceptNode(before: Section, after: Section, node: string) {
    forall k :: k != node ==> (k in after <==> k in before) && (k in before ==> after[k] == before[k])
  }

  /** The write of the locale-independent shapes: one entry under the default locale. */
  function WriteEntry(out: Store, l: Locale, node: string, v: Persisted): (r: Store)
    ensures r.Keys == out.Keys + {l}
    ensures node in r[l] && r[l][node] == v
    ensures SameExceptNode(SectionOf(out, l), r[l], node)
    ensures forall x :: x in out && x != l ==> r[x] == out[x]
  {
    out[l := SectionOf(out, l)[node := v]]
  }

  /** `toMap1`: every locale of a singular map gets its text under `node`. */
  function ToMap1<C>(source: map<Locale, C>, out: Store, node: string, encode: C -> string): (r: Store)
    ensures r.Keys == out.Keys + source.Keys
    ensures forall l :: l in source ==> node in r[l] && r[l][node] == Text(encode(source[l]))
    ensures forall l :: l in source ==> SameExceptNode(SectionOf(out, l), r[l], node)
    ensures forall l :: l in out && l !in source ==> r[l] == out[l]
  {
    map l | l in out.Keys + source.Keys ::
      if l in source then SectionOf(out, l)[node := Text(encode(source[l]))] else out[l]
  }

  /** `toMap2`: every locale of a sequence map gets its list of texts under `node`. */
  function ToMap2<C>(source: map<Locale, seq<C>>, out: Store, node: string, encode: C -> string): (r: Store)
    ensures r.Keys == out.Keys + source.Keys
    ensures forall l :: l in source ==> node in r[l] && r[l][node] == Texts(MapSeq(source[l], encode))
    ensures forall l :: l in source ==> SameExceptNode(SectionOf(out, l), r[l], node)
    ensures forall l :: l in out && l !in source ==> r[l] == out[l]
  {
    map l | l in out.Keys + source.Keys ::
      if l in source then SectionOf(out, l)[node := Texts(MapSeq(source[l], encode))] else out[l]
  }

  /** The locales a message writes: the default locale for the
      locale-independent shapes, the map keys otherwise. */
  function Written<C(!new)>(m: Message<C>, defaultLanguage: Locale): set<Locale> {
    match m
    case Disabled => {defaultLanguage}
    case Simple(_) => {defaultLanguage}
    case SimpleRandom(_) => {defaultLanguage}
    case Localized(s) => s.Keys
    case LocalizedRandom(ms) => ms.Keys
    case LocalizedMixed(s, ms) => s.Keys + ms.Keys
  }

  /** The locales a localized shape holds. */
  function Locales<C(!new)>(m: Message<C>): set<Locale> {
    match m
    case Localized(s) => s.Keys
    case LocalizedRandom(ms) => ms.Keys
    case LocalizedMixed(s, ms) => s.Keys + ms.Keys
    case _ => {}
  }

  /** The value that ends up under `node` for a written locale: `false` for
      disabled, a text for a singular component, a list for a sequence; in the
      mixed shape the sequence part wins where both parts hold the locale. */
  function Persist<C(!new)>(m: Message<C>, l: Locale, encode: C -> string): Persisted
    requires m.IsLocalizedShape() ==> l in Locales(m)
  {
    match m
    case Disabled => Flag(false)
    case Simple(c) => Text(encode(c))
    case SimpleRandom(cs) => Texts(MapSeq(cs, encode))
    case Localized(s) => Text(encode(s[l]))
    case LocalizedRandom(ms) => Texts(MapSeq(ms[l], encode))
    case LocalizedMixed(s, ms) =>
      if l in ms then Texts(MapSeq(ms[l], encode)) else Text(encode(s[l]))
  }

  /** LocalizedMixed.toMap: the singular part, then the sequence part. */
  function ToMapMixed<C>(s: map<Locale, C>, ms: map<Locale, seq<C>>, out: Store, node: string, encode: C -> string): (r: Store)
    ensures r.Keys == out.Keys + s.Keys + ms.Keys
    ensures forall l :: l in ms ==> node in r[l] && r[l][node] == Texts(MapSeq(ms[l], encode))
    ensures forall l :: l in s && l !in ms ==> node in r[l] && r[l][node] == Text(encode(s[l]))
    ensures forall l :: l in s || l in ms ==> SameExceptNode(SectionOf(out, l), r[l], node)
    ensures forall l :: l in out && l !in s && l !in ms ==> r[l] == out[l]
  {
    MixedSectionsKept(s, ms, out, node, encode);
    ToMap2(ms, ToMap1(s, out, node, encode), node, encode)
  }

  lemma SameExceptNodeTrans(a: Section, b: Section, c: Section, node: string)
    requires SameExceptNode(a, b, node) && SameExceptNode(b, c, node)
    ensures SameExceptNode(a, c, node)
  {
  }

  /** Both writes of the mixed shape leave every other key of a section alone. */
  lemma MixedSectionsKept<C>(s: map<Locale, C>, ms: map<Locale, seq<C>>, out: Store, node: string, encode: C -> string)
    ensures var r := ToMap2(ms, ToMap1(s, out, node, encode), node, encode);
      forall l :: l in s || l in ms ==> SameExceptNode(SectionOf(out, l), r[l], node)
  {
    var mid := ToMap1(s, out, node, encode);
    var r := ToMap2(ms, mid, node, encode);
    forall l | l in s || l in ms ensures SameExceptNode(SectionOf(out, l), r[l], node) {
      if l in s && l in ms {
        assert SectionOf(mid, l) == mid[l];
        SameExceptNodeTrans(SectionOf(out, l), mid[l], r[l], node);
      } else if l in s {
        assert r[l] == mid[l];
      } else {
        assert SectionOf(mid, l) == SectionOf(out, l);
      }
    }
  }

  lemma ToMapOfMixed<C(!new)>(s: map<Locale, C>, ms: map<Locale, seq<C>>, out: Store, defaultLanguage: Locale, node: string, encode: C -> string)
    ensures ToMap(LocalizedMixed(s, ms), out, defaultLanguage, node, encode) == ToMapMixed(s, ms, out, node, encode)
  {
  }

  /** `r` is `out` after writing message `m` under `node`: the written locales
      are added, each holds the persisted value under `node` and is otherwise
      unchanged, and every other locale is untouched. */
  ghost predicate Writes<C(!new)>(m: Message<C>, out: Store, defaultLanguage: Locale, node: string, encode: C -> string, r: Store) {
    && r.Keys == out.Keys + Written(m, defaultLanguage)
    && (forall l :: l in Written(m, defaultLanguage) ==> node in r[l] && r[l][node] == Persist(m, l, encode))
    && (forall l :: l in Written(m, defaultLanguage) ==> SameExceptNode(SectionOf(out, l), r[l], node))
    && (forall l :: l in out && l !in Written(m, defaultLanguage) ==> r[l] == out[l])
  }

  lemma WriteEntryWrites<C(!new)>(m: Message<C>, out: Store, defaultLanguage: Locale, node: string, encode: C -> string)
    requires !m.IsLocalizedShape()
    ensures Writes(m, out, defaultLanguage, node, encode, WriteEntry(out, defaultLanguage, node, Persist(m, defaultLanguage, encode)))
  {
  }

  lemma ToMap1Writes<C(!new)>(s: map<Locale, C>, out: Store, defaultLanguage: Locale, node: string, encode: C -> string)
    ensures Writes(Localized(s), out, defaultLanguage, node, encode, ToMap1(s, out, node, encode))
  {
  }

  lemma ToMap2Writes<C(!new)>(ms: map<Locale, seq<C>>, out: Store, defaultLanguage: Locale, node: string, encode: C -> string)
    ensures Writes(LocalizedRandom(ms), out, defaultLanguage, node, encode, ToMap2(ms, out, node, encode))
  {
  }

  lemma ToMapMixedWrites<C(!new)>(s: map<Locale, C>, ms: map<Locale, seq<C>>, out: Store, defaultLanguage: Locale, node: string, encode: C -> string)
    ensures Writes(LocalizedMixed(s, ms), out, defaultLanguage, node, encode, ToMapMixed(s, ms, out, node, encode))
  {
    var m := LocalizedMixed(s, ms);
    var r := ToMapMixed(s, ms, out, node, encode);
    assert Written(m, defaultLanguage) == s.Keys + ms.Keys;
    forall l | l in s.Keys + ms.Keys ensures node in r[l] && r[l][node] == Persist(m, l, encode) {
      if l in ms {
        assert r[l][node] == Texts(MapSeq(ms[l], encode));
      } else {
        assert r[l][node] == Text(encode(s[l]));
      }
    }
  }

  /** `toMap(map, defaultLanguage, node)`. */
  function ToMap<C(!new)>(m: Message<C>, out: Store, defaultLanguage: Locale, node: string, encode: C -> string): (r: Store)
    ensures r.Keys == out.Keys + Written(m, defaultLanguage)
    ensures forall l :: l in Written(m, defaultLanguage) ==> node in r[l] && r[l][node] == Persist(m, l, encode)
    ensures forall l :: l in Written(m, defaultLanguage) ==> SameExceptNode(SectionOf(out, l), r[l], node)
    ensures forall l :: l in out && l !in Written(m, defaultLanguage) ==> r[l] == out[l]
  {
    var r := ToMapCases(m, out, defaultLanguage, node, encode);
    ToMapCasesWrites(m, out, defaultLanguage, node, encode);
    r
  }

  /** The per-shape dispatch of `toMap`. */
  function ToMapCases<C(!new)>(m: Message<C>, out: Store, defaultLanguage: Locale, node: string, encode: C -> string): Store {
    match m
    case Disabled => WriteEntry(out, defaultLanguage, node, Flag(false))
    case Simple(c) => WriteEntry(out, defaultLanguage, node, Text(encode(c)))
    case SimpleRandom(cs) => WriteEntry(out, defaultLanguage, node, Texts(MapSeq(cs, encode)))
    case Localized(s) => ToMap1(s, out, node, encode)
    case LocalizedRandom(ms) => ToMap2(ms, out, node, encode)
    case LocalizedMixed(s, ms) => ToMapMixed(s, ms, out, node, encode)
  }

  lemma ToMapCasesWrites<C(!new)>(m: Message<C>, out: Store, defaultLanguage: Locale, node: string, encode: C -> string)
    ensures Writes(m, out, defaultLanguage, node, encode, ToMapCases(m, out, defaultLanguage, node, encode))
  {
    match m {
      case Localized(s) => ToMap1Writes(s, out, defaultLanguage, node, encode);
      case LocalizedRandom(ms) => ToMap2Writes(ms, out, defaultLanguage, node, encode);
      case LocalizedMixed(s, ms) => ToMapMixedWrites(s, ms, out, defaultLanguage, node, encode);
      case _ => WriteEntryWrites(m, out, defaultLanguage, node, encode);
    }
  }

  /** In the mixed shape, a locale held by both parts ends up with the
      sequence part's list: the singular text is overwritten. */
  lemma MixedSequenceWins<C(!new)>(s: map<Locale, C>, ms: map<Locale, seq<C>>, out: Store, defaultLanguage: Locale, node: string, encode: C -> string, l: Locale)
    requires l in s && l in ms
    ensures ToMap(LocalizedMixed(s, ms), out, defaultLanguage, node, encode)[l][node] == Texts(MapSeq(ms[l], encode))
  {
  }

  /** For a mixed message the locale-map loader produces, no locale is in both
      parts, so every singular text survives the write. */
  lemma {:induction false} LoadedMixedKeepsSingular<C(!new)>(objects: map<Locale, Raw>, parse: string -> C, out: Store, defaultLanguage: Locale, node: string, encode: C -> string, l: Locale)
    requires LoadLocalized(objects, parse).Success? && LoadLocalized(objects, parse).value.LocalizedMixed?
    requires l in LoadLocalized(objects, parse).value.single
    ensures var m := LoadLocalized(objects, parse).value;
      ToMap(m, out, defaultLanguage, node, encode)[l][node] == Text(encode(m.single[l]))
  {
    LoadedIsWellFormed(objects, parse);
  }

  // ---------------------------------------------------------------------
  // Reading a written section back
  // ---------------------------------------------------------------------

  /** How a persisted value reads back as a raw configuration value: a list
      comes back as a collection of strings. */
  function ToRaw(p: Persisted): Raw {
    match p
    case Flag(b) => Bool(b)
    case Text(s) => Str(s)
    case Texts(items) => Coll(items)
  }

  /** The per-locale raw values of one message key in a store. */
  function Reread(store: Store, node: string): (r: map<Locale, Raw>)
    ensures forall l :: l in r <==> l in store && node in store[l]
  {
    map l | l in store && node in store[l] :: ToRaw(store[l][node])
  }

  lemma ParseEncodeSeq<C>(cs: seq<C>, parse: string -> C, encode: C -> string)
    requires forall i :: 0 <= i < |cs| ==> parse(encode(cs[i])) == cs[i]
    ensures MapSeq(MapSeq(cs, encode), parse) == cs
  {
  }

  /** A locale-independent message written under the default locale loads
      back as itself through the single-entry path. */
  lemma {:induction false} SimpleRoundTrip<C(!new)>(m: Message<C>, defaultLanguage: Locale, node: string, parse: string -> C, encode: C -> string)
    requires !m.IsLocalizedShape()
    requires forall c :: Holds(m, c) ==> parse(encode(c)) == c
    ensures LoadLocalized(Reread(ToMap(m, map[], defaultLanguage, node, encode), node), parse) == Success(m)
  {
    var raw := Reread(ToMap(m, map[], defaultLanguage, node, encode), node);
    var v := ToRaw(Persist(m, defaultLanguage, encode));
    assert raw == map[defaultLanguage := v];
    SingleEntryIsNotLocalized(defaultLanguage, v, parse);
    if m.SimpleRandom? {
      assert forall i :: 0 <= i < |m.msgs| ==> Holds(m, m.msgs[i]);
      ParseEncodeSeq(m.msgs, parse, encode);
    }
  }

  /** The singular texts read back parse to the original components. */
  lemma SingularReadBack<C(!new)>(m: Message<C>, s: map<Locale, C>, raw: map<Locale, Raw>, parse: string -> C, encode: C -> string)
    requires (m.Localized? || m.LocalizedMixed?) && m.single == s
    requires forall c :: Holds(m, c) ==> parse(encode(c)) == c
    requires forall l :: l in raw && raw[l].IsScalar() <==> l in s
    requires forall l :: l in s ==> raw[l] == Str(encode(s[l]))
    ensures SingularPart(raw, parse) == s
  {
    forall l | l in s ensures parse(encode(s[l])) == s[l] {
      assert s[l] in s.Values;
      assert Holds(m, s[l]);
    }
  }

  /** The written lists read back parse to the original sequences. */
  lemma SequenceReadBack<C(!new)>(m: Message<C>, ms: map<Locale, seq<C>>, raw: map<Locale, Raw>, parse: string -> C, encode: C -> string)
    requires (m.LocalizedRandom? || m.LocalizedMixed?) && m.multi == ms
    requires forall c :: Holds(m, c) ==> parse(encode(c)) == c
    requires forall l :: l in raw && raw[l].IsSequence() <==> l in ms
    requires forall l :: l in ms ==> raw[l] == Coll(MapSeq(ms[l], encode))
    ensures SequencePart(raw, parse) == ms
  {
    forall l | l in ms ensures MapSeq(MapSeq(ms[l], encode), parse) == ms[l] {
      forall i | 0 <= i < |ms[l]| ensures parse(encode(ms[l][i])) == ms[l][i] {
        assert Holds(m, ms[l][i]);
      }
      ParseEncodeSeq(ms[l], parse, encode);
    }
  }

  /** The raw values a singular map is written as. */
  function SingularRaw<C>(s: map<Locale, C>, encode: C -> string): map<Locale, Raw> {
    map l | l in s :: Str(encode(s[l]))
  }

  /** The raw values a mixed message with disjoint parts is written as. */
  function MixedRaw<C>(s: map<Locale, C>, ms: map<Locale, seq<C>>, encode: C -> string): map<Locale, Raw> {
    map l | l in s.Keys + ms.Keys :: if l in ms then Coll(MapSeq(ms[l], encode)) else Str(encode(s[l]))
  }

  /** The raw values a sequence map is written as. */
  function SequenceRaw<C>(ms: map<Locale, seq<C>>, encode: C -> string): map<Locale, Raw> {
    map l | l in ms :: Coll(MapSeq(ms[l], encode))
  }

  /** A singular map written into an empty store reads back as its texts. */
  lemma SingularReadsBack<C>(s: map<Locale, C>, node: string, encode: C -> string)
    ensures Reread(ToMap1(s, map[], node, encode), node) == SingularRaw(s, encode)
  {
    var raw := Reread(ToMap1(s, map[], node, encode), node);
    assert raw.Keys == s.Keys;
  }

  /** A sequence map written into an empty store reads back as its lists. */
  lemma SequenceReadsBack<C>(ms: map<Locale, seq<C>>, node: string, encode: C -> string)
    ensures Reread(ToMap2(ms, map[], node, encode), node) == SequenceRaw(ms, encode)
  {
    var raw := Reread(ToMap2(ms, map[], node, encode), node);
    assert raw.Keys == ms.Keys;
  }

  /** A mixed message with disjoint parts reads back as both parts. */
  lemma MixedReadsBack<C>(s: map<Locale, C>, ms: map<Locale, seq<C>>, node: string, encode: C -> string)
    requires s.Keys !! ms.Keys
    ensures Reread(ToMapMixed(s, ms, map[], node, encode), node) == MixedRaw(s, ms, encode)
  {
    MixedReadBackKeys(s, ms, node, encode);
    MixedReadBackValues(s, ms, node, encode);
    MapExtensional(Reread(ToMapMixed(s, ms, map[], node, encode), node), MixedRaw(s, ms, encode));
  }

  lemma MixedReadBackKeys<C>(s: map<Locale, C>, ms: map<Locale, seq<C>>, node: string, encode: C -> string)
    ensures Reread(ToMapMixed(s, ms, map[], node, encode), node).Keys == MixedRaw(s, ms, encode).Keys
  {
    var store := ToMapMixed(s, ms, map[], node, encode);
    assert store.Keys == s.Keys + ms.Keys;
  }

  lemma MixedReadBackValues<C>(s: map<Locale, C>, ms: map<Locale, seq<C>>, node: string, encode: C -> string)
    ensures var raw := Reread(ToMapMixed(s, ms, map[], node, encode), node);
      forall l :: l in raw && l in MixedRaw(s, ms, encode) ==> raw[l] == MixedRaw(s, ms, encode)[l]
  {
    var store := ToMapMixed(s, ms, map[], node, encode);
    var raw := Reread(store, node);
    var expected := MixedRaw(s, ms, encode);
    forall l | l in raw && l in expected ensures raw[l] == expected[l] {
      if l in ms {
        assert store[l][node] == Texts(MapSeq(ms[l], encode));
      } else {
        assert store[l][node] == Text(encode(s[l]));
      }
    }
  }

  lemma MapExtensional<K, V>(a: map<K, V>, b: map<K, V>)
    requires a.Keys == b.Keys
    requires forall k :: k in a && k in b ==> a[k] == b[k]
    ensures a == b
  {
  }

  lemma ToMapOfLocalized<C(!new)>(s: map<Locale, C>, out: Store, defaultLanguage: Locale, node: string, encode: C -> string)
    ensures ToMap(Localized(s), out, defaultLanguage, node, encode) == ToMap1(s, out, node, encode)
  {
  }

  lemma ToMapOfRandom<C(!new)>(ms: map<Locale, seq<C>>, out: Store, defaultLanguage: Locale, node: string, encode: C -> string)
    ensures ToMap(LocalizedRandom(ms), out, defaultLanguage, node, encode) == ToMap2(ms, out, node, encode)
  {
  }

  lemma {:induction false} LocalizedRoundTrip<C(!new)>(s: map<Locale, C>, defaultLanguage: Locale, node: string, parse: string -> C, encode: C -> string)
    requires |s| >= 2
    requires forall c :: Holds(Localized(s), c) ==> parse(encode(c)) == c
    ensures LoadLocalized(Reread(ToMap(Localized(s), map[], defaultLanguage, node, encode), node), parse) == Success(Localized(s))
  {
    var store := ToMap(Localized(s), map[], defaultLanguage, node, encode);
    ToMapOfLocalized(s, map[], defaultLanguage, node, encode);
    assert Reread(store, node) == SingularRaw(s, encode) by {
      SingularReadsBack(s, node, encode);
    }
    LoadSingularRaw(s, parse, encode);
  }

  lemma LoadSingularRaw<C(!new)>(s: map<Locale, C>, parse: string -> C, encode: C -> string)
    requires |s| >= 2
    requires forall c :: Holds(Localized(s), c) ==> parse(encode(c)) == c
    ensures LoadLocalized(SingularRaw(s, encode), parse) == Success(Localized(s))
  {
    var raw := SingularRaw(s, encode);
    assert raw.Keys == s.Keys;
    assert !HasNull(raw);
    SingularReadBack(Localized(s), s, raw, parse, encode);
    assert SequencePart(raw, parse) == map[];
  }

  lemma {:induction false} RandomRoundTrip<C(!new)>(ms: map<Locale, seq<C>>, defaultLanguage: Locale, node: string, parse: string -> C, encode: C -> string)
    requires |ms| >= 2
    requires forall c :: Holds(LocalizedRandom(ms), c) ==> parse(encode(c)) == c
    ensures LoadLocalized(Reread(ToMap(LocalizedRandom(ms), map[], defaultLanguage, node, encode), node), parse) == Success(LocalizedRandom(ms))
  {
    var store := ToMap(LocalizedRandom(ms), map[], defaultLanguage, node, encode);
    ToMapOfRandom(ms, map[], defaultLanguage, node, encode);
    assert Reread(store, node) == SequenceRaw(ms, encode) by {
      SequenceReadsBack(ms, node, encode);
    }
    LoadSequenceRaw(ms, parse, encode);
  }

  lemma LoadSequenceRaw<C(!new)>(ms: map<Locale, seq<C>>, parse: string -> C, encode: C -> string)
    requires |ms| >= 2
    requires forall c :: Holds(LocalizedRandom(ms), c) ==> parse(encode(c)) == c
    ensures LoadLocalized(SequenceRaw(ms, encode), parse) == Success(LocalizedRandom(ms))
  {
    var raw := SequenceRaw(ms, encode);
    assert raw.Keys == ms.Keys;
    assert !HasNull(raw);
    SequenceReadBack(LocalizedRandom(ms), ms, raw, parse, encode);
    assert SingularPart(raw, parse) == map[];
  }

  lemma {:induction false} MixedRoundTrip<C(!new)>(s: map<Locale, C>, ms: map<Locale, seq<C>>, defaultLanguage: Locale, node: string, parse: string -> C, encode: C -> string)
    requires |s| > 0 && |ms| > 0 && s.Keys !! ms.Keys
    requires forall c :: Holds(LocalizedMixed(s, ms), c) ==> parse(encode(c)) == c
    ensures LoadLocalized(Reread(ToMap(LocalizedMixed(s, ms), map[], defaultLanguage, node, encode), node), parse) == Success(LocalizedMixed(s, ms))
  {
    var store := ToMap(LocalizedMixed(s, ms), map[], defaultLanguage, node, encode);
    ToMapOfMixed(s, ms, map[], defaultLanguage, node, encode);
    var raw := Reread(store, node);
    assert raw == MixedRaw(s, ms, encode) by {
      MixedReadsBack(s, ms, node, encode);
    }
    LoadMixedRaw(s, ms, parse, encode);
  }

  lemma LoadMixedRaw<C(!new)>(s: map<Locale, C>, ms: map<Locale, seq<C>>, parse: string -> C, encode: C -> string)
    requires |s| > 0 && |ms| > 0 && s.Keys !! ms.Keys
    requires forall c :: Holds(LocalizedMixed(s, ms), c) ==> parse(encode(c)) == c
    ensures LoadLocalized(MixedRaw(s, ms, encode), parse) == Success(LocalizedMixed(s, ms))
  {
    var raw := MixedRaw(s, ms, encode);
    MixedRawShape(s, ms, encode);
    MixedRawParts(s, ms, parse, encode);
    LoadFromParts(raw, parse);
  }

  /** The mixed raw map has no null and at least two locales. */
  lemma MixedRawShape<C>(s: map<Locale, C>, ms: map<Locale, seq<C>>, encode: C -> string)
    requires |s| > 0 && |ms| > 0 && s.Keys !! ms.Keys
    ensures !HasNull(MixedRaw(s, ms, encode))
    ensures |MixedRaw(s, ms, encode)| >= 2
  {
    var raw := MixedRaw(s, ms, encode);
    var a :| a in s;
    var b :| b in ms;
    assert {a, b} <= raw.Keys;
    SubsetCardinality({a, b}, raw.Keys);
  }

  /** The mixed raw map splits back into the two parts. */
  lemma MixedRawParts<C(!new)>(s: map<Locale, C>, ms: map<Locale, seq<C>>, parse: string -> C, encode: C -> string)
    requires s.Keys !! ms.Keys
    requires forall c :: Holds(LocalizedMixed(s, ms), c) ==> parse(encode(c)) == c
    ensures SingularPart(MixedRaw(s, ms, encode), parse) == s
    ensures SequencePart(MixedRaw(s, ms, encode), parse) == ms
  {
    var m := LocalizedMixed(s, ms);
    var raw := MixedRaw(s, ms, encode);
    SingularReadBack(m, s, raw, parse, encode);
    SequenceReadBack(m, ms, raw, parse, encode);
  }

  /** Writing a well-formed message into an empty store and loading the
      written key back gives the same message, provided the parser reads back
      what the encoder wrote for each of the message's components. */
  lemma {:induction false} PersistRoundTrip<C(!new)>(m: Message<C>, defaultLanguage: Locale, node: string, parse: string -> C, encode: C -> string)
    requires WellFormed(m)
    requires forall c :: Holds(m, c) ==> parse(encode(c)) == c
    ensures LoadLocalized(Reread(ToMap(m, map[], defaultLanguage, node, encode), node), parse) == Success(m)
  {
    match m {
      case Localized(s) => LocalizedRoundTrip(s, defaultLanguage, node, parse, encode);
      case LocalizedRandom(ms) => RandomRoundTrip(ms, defaultLanguage, node, parse, encode);
      case LocalizedMixed(s, ms) => MixedRoundTrip(s, ms, defaultLanguage, node, parse, encode);
      case _ => SimpleRoundTrip(m, defaultLanguage, node, parse, encode);
    }
  }
}

=== FILE: wrappers.dfy ===
/** Generic helpers used throughout the model: `Option` stands in for a Java
    reference that may be null, `Result` for a call that may throw, and
    `MapSeq` for an element-by-element conversion loop. */
module Wrappers {

  datatype Option<+T> = None | Some(value: T)

  datatype Result<+R, +E> = Success(value: R) | Failure(error: E)

  /** Applies `f` to every element, keeping the order. */
  function MapSeq<A, B>(xs: seq<A>, f: A -> B): (r: seq<B>)
    ensures |r| == |xs|
    ensures forall i :: 0 <= i < |xs| ==> r[i] == f(xs[i])
  {
    seq(|xs|, i requires 0 <= i < |xs| => f(xs[i]))
  }
}
